=== FILE: README.md ===
# SyncRecordingApp, modelled in Dafny

SyncRecordingApp bridges two motion-capture control planes. One side is the capture
software's broadcast command protocol: flat XML packets over UDP. The other side is the
studio's command API: JSON bodies POSTed over HTTP. This project models the core of the
bridge as pure Dafny functions and proves what it promises:

- **Settings store** (`IniLines`, `Ini`, `IniProperties`): the INI file read into a
  table keyed by (section, key) whose values may be null. The model covers:
  - the typed getters and setters, deletion, section enumeration and `isEmpty`;
  - the text `SaveSettings` writes;
  - the proof that saving and loading again gives the same table back, for every order
    the hashtable enumerates its keys in.
- **Flat XML** (`FlatXml`): the shape of the broadcast packets, with its renderer and
  parser. A well-formed element that is written and parsed again is itself. Values
  are kept exactly as written, tabs and line breaks included, as `LoadXml` keeps them.
  A character outside XML's `Char` production, a raw `<` or a namespace prefix makes
  the document fail to load, as it makes `LoadXml` raise. The model also refuses every
  `&`. `LoadXml` raises only on a bare `&`, and it expands a well-formed reference such
  as `&amp;`.
- **Command API bodies** (`CommandApi`):
  - the JSON field names and defaults of the recording and calibration inputs;
  - the pose wire strings;
  - the calibration input's text form.
- **Broadcast packets** (`Broadcast`, `BroadcastProperties`):
  - `GenerateXMLCommand` as the rendering of a seven-child element;
  - the listener's decision on a datagram. It finds the ProcessID node (the start
    command first, then the stop command), drops the bridge's own echoes and
    non-integers, and fills in the default name and time code. An exception raised
    inside the `try` is caught.
- **Dispatch** (`Dispatch`, `DispatchProperties`): what a recording or calibrate command
  sends, and in what order, as a plan of effects:
  - UDP to port P, then UDP to port P - 2, then the POST;
  - how the plan runs when calls raise. All calls share one `try`, so the first call
    that raises ends the command.
- **Session** (`Bridge`, `BridgeProperties`): start-up from the settings table, the
  console key switch of `Main`, the run loop that ends on `q`, and one iteration of the
  background listener.

Decisions about the environment:

- Effects are not performed. They are returned as data.
- A transport fault is the set `failing` of call indices that raise. A UDP send to a
  port outside 1..65535 always raises. Port 0 is included, because `UdpClient.Send` to
  port 0 on the bound but unconnected client raises. Start-up checks the ports it binds
  and puts into the base address against 0..65535.
- The hashtable's enumeration order is a parameter `order`.
- The process id is a parameter. So is the console line read after `x`.
- A float is carried as its 32-bit pattern and never inspected. 30.0f is `0x41F00000`.

Behaviour of the code worth knowing, which the model keeps:

- A broadcast call that raises skips the POST: one `try` surrounds both UDP sends and
  the POST (Program.cs:301-320).
- The `r` key only flips `receiveXMLCommands`. It neither starts nor stops the listener,
  which is started once at start-up and loops on `isRunning` alone (Program.cs:113-116,
  142-145, 180).
- `x` stores the line it read even when the line is empty (Program.cs:126). A later `z`
  then stops with the empty name.
- A ProcessID, Name or TimeCode node without a `VALUE` attribute raises inside the
  listener's `try`. The exception is caught and logged (Program.cs:205-221).

## Model

| member | source | states |
|---|---|---|
| `Strings.TrimBy` | SyncRecordingApp/IniParser.cs:49 | `String.Trim` as the reader applies it: the result is a slice of the line with only white space outside it, it neither starts nor ends with white space, and a line with no white space at either end is returned unchanged |
| `Strings.TrimBySlice` | SyncRecordingApp/IniParser.cs:49 | the slice with non-white ends and only white space outside it is exactly what trimming leaves, so the result is determined by the line |
| `Strings.Trim` | SyncRecordingApp/IniParser.cs:49 | `String.Trim`: no longer than the line, no white space at either end, and a line without white space at its ends is unchanged; `TrimBy` and `TrimBySlice` fix the result exactly |
| `Decimal.IntToString` | SyncRecordingApp/IniParser.cs:159-167 | `int.ToString` as `AddSetting(int)` stores it: non-empty, a leading '-' exactly for negative numbers, and the digits denote the absolute value |
| `Decimal.ParseInt32` | SyncRecordingApp/Program.cs:205 | `int.TryParse`: succeeds exactly on an optional sign and at least one ASCII digit, with only number white space around it, whose value fits in 32 bits, and then yields that value; any other text yields `None` |
| `Decimal.TrimAroundInteger` | SyncRecordingApp/Program.cs:205 | trimming number white space from such text leaves exactly its signed digits |
| `Decimal.TrimmedInteger` | SyncRecordingApp/Program.cs:205 | signed digits left by trimming lie in the text with only number white space around them |
| `Decimal.ParseIntToString` | SyncRecordingApp/IniParser.cs:106-114 | `int.Parse` reads the text of `int.ToString` back as the same 32-bit number |
| `IniLines.ReadLines` | SyncRecordingApp/IniParser.cs:47 | the `ReadLine` loop: no line it returns holds a line break, and a non-empty file yields at least one line; which lines they are is stated by `ReadTerminatedLines` |
| `IniLines.ReadTerminatedLines` | SyncRecordingApp/IniParser.cs:47 | a file whose lines end in any mix of CR LF, CR and LF reads back as exactly those lines, as long as no lone CR is followed by an empty line ended by LF |
| `IniLines.ReadLineThen` | SyncRecordingApp/IniParser.cs:47 | a break-free line followed by CR LF, CR or LF is returned and reading goes on after the terminator, unless a lone CR is directly followed by LF |
| `IniLines.MixedTerminators` | SyncRecordingApp/IniParser.cs:47 | break-free lines a, b, c, d, where c and d are non-empty, written as a CR LF b CR c LF d, read as exactly the four lines; the last line, which has no terminator, is returned |
| `IniLines.LoneCrThenEmptyLine` | SyncRecordingApp/IniParser.cs:47 | a CR followed by an empty line ended by LF is one CR LF terminator, so "a" CR LF reads as the single line "a" |
| `IniLines.ReadJoinedLines` | SyncRecordingApp/IniParser.cs:210-225 | lines written each followed by CR LF are read back as the same lines when none of them holds a line break |
| `Ini.SplitKeyValue` | SyncRecordingApp/IniParser.cs:59-66 | the split at the first '=' only: the key holds no '=', and writing key and value back gives the line |
| `Ini.LoadLines` | SyncRecordingApp/IniParser.cs:47-69 | a successful load never drops or replaces a setting read earlier |
| `Ini.Load` | SyncRecordingApp/IniParser.cs:47-69 | every loaded setting comes from a key line of the file with that key and value, under "ROOT" or a section a header of the file names; `SaveLoadRoundTrip` and the step lemmas state the converse |
| `Ini.LoadedFromLines` | SyncRecordingApp/IniParser.cs:47-69 | by induction over the lines: each setting the read loop adds was read from a key line holding its key and value, under the section in force or a later header |
| `Ini.AddString` | SyncRecordingApp/IniParser.cs:139-147 | adds or replaces: the pair is present with the new value, no other pair appears, and every other pair keeps its value |
| `Ini.GetString` | SyncRecordingApp/IniParser.cs:86-94 | the stored value (null included) when the pair is present, otherwise the default; `AddThenGet` and `GetDefaultWhenAbsent` relate it to writes |
| `Ini.GetBool` | SyncRecordingApp/IniParser.cs:96-104 | true exactly when the stored value is "Yes", the default when absent; `BoolRoundTrip` relates it to the bool setter |
| `Ini.GetInt` | SyncRecordingApp/IniParser.cs:106-114 | the default when absent; raises on a null value exactly; otherwise the signed integer the stored text holds, or a raise when it has none in the 32-bit range; `IntRoundTrip` relates it to the int setter |
| `Ini.Delete` | SyncRecordingApp/IniParser.cs:184-190 | removes exactly that pair, keeps every other value, and leaves a table without the pair unchanged |
| `Ini.IsEmpty` | SyncRecordingApp/IniParser.cs:22 | true exactly when the table holds no setting |
| `Ini.EnumSection` | SyncRecordingApp/IniParser.cs:120-131 | lists exactly the keys of the section, each once |
| `Ini.SectionsFrom` | SyncRecordingApp/IniParser.cs:202-206 | the section list holds no section twice, and holds exactly the sections already listed or appearing in the enumeration |
| `IniProperties.AddThenGet` | SyncRecordingApp/IniParser.cs:86-94 | after `AddSetting` the pair reads back as the added value (null included), and every other pair reads as before |
| `IniProperties.GetDefaultWhenAbsent` | SyncRecordingApp/IniParser.cs:86-114 | all three getters return their default for an absent pair; the string getter returns the stored value for a present one |
| `IniProperties.BoolRoundTrip` | SyncRecordingApp/IniParser.cs:149-157 | a bool is stored as "Yes" or "No" and the bool getter reads it back |
| `IniProperties.IntRoundTrip` | SyncRecordingApp/IniParser.cs:159-167 | an int stored with `AddSetting` reads back through the int getter |
| `IniProperties.NullValueReads` | SyncRecordingApp/IniParser.cs:174-177 | a key added without a value reads as null, as false, and raises in the int getter |
| `IniProperties.DeleteThenGet` | SyncRecordingApp/IniParser.cs:184-190 | a deleted pair reads as the default; deleting an absent pair changes nothing; add then delete on an empty table leaves it empty |
| `IniProperties.SplitEntryLine` | SyncRecordingApp/IniParser.cs:59-66 | a written line `key=value` (or the bare key) splits back into that key and value when the key holds no '=' |
| `IniProperties.EntryLineIsKeyLine` | SyncRecordingApp/IniParser.cs:216-221 | the written line of a safe setting is unchanged by trimming, is not blank and is not taken for a header |
| `IniProperties.ClassifyCases` | SyncRecordingApp/IniParser.cs:49-66 | any raw line is blank exactly when nothing is left after `Trim`, the header `[name]` exactly when the trimmed line is `[name]`, and the key line of `k` and `v` exactly when the trimmed line is neither and is `k=v` (the bare `k` for a null value) with no '=' in `k` |
| `IniProperties.ClassifyEntryLine` | SyncRecordingApp/IniParser.cs:216-221 | the written line of a safe setting is read as that setting |
| `IniProperties.ClassifyHeaderLine` | SyncRecordingApp/IniParser.cs:210 | a written header line is read as that section's header |
| `IniProperties.LoadBlankStep` | SyncRecordingApp/IniParser.cs:49-51 | a line that is blank once trimmed is skipped |
| `IniProperties.LoadHeaderStep` | SyncRecordingApp/IniParser.cs:53-56 | any line read as the header `[name]` makes `name` the current section |
| `IniProperties.LoadEntryStep` | SyncRecordingApp/IniParser.cs:57-67 | any line read as a key line adds its pair under the current section, or under "ROOT" before any header, which then stays current; a pair already read raises instead |
| `IniProperties.LoadRootKeyLine` | SyncRecordingApp/IniParser.cs:61-62 | any key line before any header is stored under section "ROOT" |
| `IniProperties.LoadHeaderThenKey` | SyncRecordingApp/IniParser.cs:53-67 | any key line after a line read as `[name]` is stored under section `name` |
| `IniProperties.HandEditedLine` | SyncRecordingApp/IniParser.cs:49-67 | the line "  Port = 1512 " before any header is stored as key "Port " with value " 1512" under "ROOT": only the whole line is trimmed |
| `IniProperties.HandEditedTrim` | SyncRecordingApp/IniParser.cs:49 | `Trim` of "  Port = 1512 " is "Port = 1512" |
| `IniProperties.DuplicateAhead` | SyncRecordingApp/IniParser.cs:57-73 | once a pair of a section is read, a later key line with the same key raises, past any blank and key lines but no header; with only blank lines between, it names that pair |
| `IniProperties.RepeatedKeyRaises` | SyncRecordingApp/IniParser.cs:57-73 | two key lines with the same key in the same section (only blank and key lines between) make loading raise; with only blank lines between, the error names that (section, key) pair |
| `IniProperties.LoadEntries` | SyncRecordingApp/IniParser.cs:212-223 | loading the lines written for a section's keys adds exactly those settings |
| `IniProperties.ListedSection` | SyncRecordingApp/IniParser.cs:212-214 | the keys a section lists while enumerating the table are all of that section's settings |
| `IniProperties.LoadBlock` | SyncRecordingApp/IniParser.cs:208-226 | loading one written section block adds exactly that section's settings, and the section stays current |
| `IniProperties.LoadBlocks` | SyncRecordingApp/IniParser.cs:208-226 | loading the blocks of distinct sections not yet loaded adds exactly their settings |
| `IniProperties.BlocksHaveNoBreaks` | SyncRecordingApp/IniParser.cs:208-226 | no written line of a saveable table holds a line break |
| `IniProperties.SectionsOfTable` | SyncRecordingApp/IniParser.cs:202-206 | the sections written are those of the table, each once |
| `IniProperties.SaveLoadRoundTrip` | SyncRecordingApp/IniParser.cs:196-226 | reading back the text `SaveSettings` writes gives the same table, for any enumeration order, when keys and values survive trimming and splitting |
| `Ini.SaveText` | SyncRecordingApp/IniParser.cs:196-226 | the text written is empty exactly when the table is; `SaveLoadRoundTrip` states that loading it gives the table back |
| `FlatXml.Parse` | SyncRecordingApp/Program.cs:191-192 | every document the parser accepts is well formed: prefix-free XML names, and values made only of XML `Char`s other than `"`, `<` and `&`, which the loader keeps as written (tabs and line breaks included) |
| `FlatXml.ParseRenderedChild` | SyncRecordingApp/Program.cs:231-237 | a written `<Tag VALUE="v"/>` child is read back as itself, leaving what follows |
| `FlatXml.ParseRenderedChildren` | SyncRecordingApp/Program.cs:231-237 | a written run of children is read back as the same children, up to the end tag |
| `FlatXml.ParseRender` | SyncRecordingApp/Program.cs:191-192 | a well-formed element, written and loaded, is itself: no control character outside XML's `Char`, no namespace prefix, values returned exactly as written |
| `FlatXml.ParseChildUnsafe` | SyncRecordingApp/Program.cs:191-192 | a written child whose value holds a character outside XML's `Char` or a raw `<` does not load, as `LoadXml` raises; a value holding `&` is refused by this model, while `LoadXml` expands references such as `&amp;` |
| `FlatXml.ParseChildrenUnsafe` | SyncRecordingApp/Program.cs:191-192 | a run of written children, any one of which holds such a value, does not load (for `&`: is refused by this model; `LoadXml` expands references such as `&amp;`) |
| `FlatXml.ParseRenderUnsafe` | SyncRecordingApp/Program.cs:191-192 | a written element with a value holding a character outside XML's `Char` or a raw `<` does not load, as `LoadXml` raises; one holding `&` is refused by this model, while `LoadXml` expands references such as `&amp;` |
| `CommandApi.PoseFromWire` | SyncRecordingApp/CommandAPITypes.cs:16-27 | a pose read from a wire string writes back as that string |
| `CommandApi.PoseWireRoundTrip` | SyncRecordingApp/CommandAPITypes.cs:16-27 | every pose reads back from its wire string, and distinct poses have distinct wire strings |
| `CommandApi.RecordingInputFor` | SyncRecordingApp/Program.cs:284-289 | the recording input carries the given name, time code and frame rate, and `back_to_live` keeps its default |
| `CommandApi.RecordingFields` | SyncRecordingApp/CommandAPITypes.cs:31-43 | the body has exactly the fields `filename`, `time`, `frame_rate`, `back_to_live`, in that order, and the input reads back from it |
| `CommandApi.CalibrationFields` | SyncRecordingApp/CommandAPITypes.cs:56-73 | the body has exactly the fields `device_id` … `use_custom_pose` and `pose` (no JSON name, so the member name), in order, and the input reads back from it |
| `CommandApi.CalibrationToStringParts` | SyncRecordingApp/CommandAPITypes.cs:75-78 | the text is the device id (empty when null), then ", ", then comma-free text that parses back to the countdown |
| `CommandApi.CalibrationToString` | SyncRecordingApp/CommandAPITypes.cs:75-78 | starts with the device id (empty when null) followed by ", "; `CalibrationToStringParts` states that the countdown reads back from the rest |
| `Broadcast.CommandElement` | SyncRecordingApp/Program.cs:230-238 | the packet element is named after the command and has exactly seven children, TimeCode … ProcessID in the template's order, carrying the arguments verbatim and the two ids in decimal |
| `Broadcast.GenerateXmlCommand` | SyncRecordingApp/Program.cs:226-241 | the appended template text is exactly the flat rendering of the command element, with the arguments unescaped |
| `Broadcast.ValuePiece` | SyncRecordingApp/Program.cs:231-237 | each template piece is the rendering of a child carrying that value |
| `Broadcast.SelectNode` | SyncRecordingApp/Program.cs:195 | `SelectSingleNode("root/tag")` finds a node exactly when the document element is `root` and has a `tag` child, and returns the first such child |
| `Broadcast.PidNode` | SyncRecordingApp/Program.cs:194-201 | a ProcessID node is found exactly when the document is a start or stop command with a ProcessID child; the flag is true exactly for a start command |
| `Broadcast.PidVerdict` | SyncRecordingApp/Program.cs:204-206 | a missing VALUE raises, a value that is not an integer drops the packet, the local id drops it as an echo, and any other id lets it through; the four cases exclude each other |
| `Broadcast.RelayFields` | SyncRecordingApp/Program.cs:208-213 | reading name and time code raises exactly when the selected Name or TimeCode node is present without a VALUE, reporting the Name node first; otherwise each is the node's VALUE, or "Clip001" / "0:0:0:0" when the node is absent |
| `Broadcast.DecodeDocument` | SyncRecordingApp/Program.cs:194-215 | nothing is done exactly when no ProcessID node is found, a relay keeps the document's command, and a loaded document never counts as malformed |
| `Broadcast.DecodeDatagram` | SyncRecordingApp/Program.cs:189-192 | a datagram is malformed exactly when it does not load, and ignored exactly when it loads without a start or stop ProcessID node; `DecodeGeneratedPacket`, `UnescapedPacketRaises` and `RelayedDefaults` state the rest |
| `BroadcastProperties.IntTextIsSafe` | SyncRecordingApp/Program.cs:236-237 | the decimal text of an id is written and read back unchanged |
| `BroadcastProperties.TagsAreNames` | SyncRecordingApp/Program.cs:230-238 | the command names and the seven child tags are XML names |
| `BroadcastProperties.CommandElementWellFormed` | SyncRecordingApp/Program.cs:230-238 | a generated packet whose text values are XML `Char`s other than `"`, `<` and `&` (so need no escaping and load) is a well-formed document |
| `BroadcastProperties.GeneratedPidNode` | SyncRecordingApp/Program.cs:194-201 | in a generated packet the listener finds the ProcessID node of the packet's own command, carrying the sender's id |
| `BroadcastProperties.GeneratedRelayFields` | SyncRecordingApp/Program.cs:208-213 | in a generated packet the Name and TimeCode nodes carry the arguments |
| `BroadcastProperties.DecodeGeneratedPacket` | SyncRecordingApp/Program.cs:189-215 | a generated packet whose text values are XML `Char`s other than `"`, `<` and `&` decodes as an echo when it carries the local id, and otherwise is relayed with its command, name and time code exactly (tabs and line breaks included) |
| `BroadcastProperties.UnescapedPacketRaises` | SyncRecordingApp/Program.cs:226-241 | the template inserts values verbatim: when none of name, time code, notes, description and path holds a `"`, and one of them holds a character outside XML's `Char` or a raw `<`, the packet does not load at the listener, whose `try` raises; a value holding `&` is refused by this model too, while `LoadXml` expands references such as `&amp;` |
| `BroadcastProperties.GeneratedPacketFields` | SyncRecordingApp/Program.cs:194-213 | a generated packet with text values made of XML `Char`s other than `"`, `<` and `&` parses; the listener finds its own command's ProcessID node, whose value reads back as the sender's process id, and reads back the name and time code |
| `BroadcastProperties.NoCommandIffNoProcessId` | SyncRecordingApp/Program.cs:194-206 | a document is ignored exactly when it is not a start or stop command with a ProcessID child |
| `BroadcastProperties.ProcessIdDecision` | SyncRecordingApp/Program.cs:204-206 | given the first ProcessID child: the packet raises exactly when it has no VALUE, is dropped as not an integer exactly when the value does not parse, and as an echo exactly when it is the local id |
| `BroadcastProperties.DecodeAtProcessId` | SyncRecordingApp/Program.cs:204-215 | a rejecting ProcessID child decides the packet; an accepted one leads to a relay or to a missing Name or TimeCode value |
| `BroadcastProperties.RelayFieldsValues` | SyncRecordingApp/Program.cs:208-213 | the name (time code) read is the VALUE of the first Name (TimeCode) child, or "Clip001" ("0:0:0:0") when there is none |
| `BroadcastProperties.RelayedDefaults` | SyncRecordingApp/Program.cs:208-215 | an accepted packet (integer ProcessID other than the local id) is relayed exactly when its first Name and TimeCode children, where present, carry a VALUE; it is relayed as its own command with those values or the defaults for absent children; otherwise the missing value raises, Name first |
| `BroadcastProperties.NamedStartDocument` | SyncRecordingApp/Program.cs:194-215 | a start document with only a ProcessID and a Name is relayed with that name and the default time code, unless it carries the local id |
| `BroadcastProperties.NameOnlyFields` | SyncRecordingApp/Program.cs:208-213 | with a Name child and no TimeCode child, the name is read and the time code defaults |
| `BroadcastProperties.NamedStartPacket` | SyncRecordingApp/Program.cs:189-215 | the same for the datagram text of such a document |
| `BroadcastProperties.NameCharacters` | SyncRecordingApp/Program.cs:189-221 | a start packet whose name holds U+0001 raises in `LoadXml` and is caught; a tab in the name is relayed as it is |
| `BroadcastProperties.AbsentFieldsDefault` | SyncRecordingApp/Program.cs:208-213 | a document with neither a Name nor a TimeCode child reads as "Clip001" and "0:0:0:0" |
| `BroadcastProperties.UnnamedStartDocument` | SyncRecordingApp/Program.cs:204-215 | an accepted start document with no Name and no TimeCode child is relayed with "Clip001" and "0:0:0:0" |
| `BroadcastProperties.UnnamedStartPacket` | SyncRecordingApp/Program.cs:189-215 | the same for the datagram text of that document |
| `BroadcastProperties.RemoteStartPacket` | SyncRecordingApp/Program.cs:204-206 | a start packet with id 999 and name "Remote" is relayed at local id 500, and the same packet with id 500 is dropped |
| `Dispatch.Sub32` | SyncRecordingApp/Program.cs:307 | `portCommandXML - 2` in 32-bit arithmetic: the true difference when it fits, and otherwise congruent to it modulo 2^32 |
| `Dispatch.ApiBaseRoute` | SyncRecordingApp/Program.cs:352-355 | the route is "v1/" followed by the key, with a null key writing nothing |
| `Dispatch.RecordingPlan` | SyncRecordingApp/Program.cs:295-315 | with a UDP client: the packet to port P, then to P - 2, then the POST; without one, the POST only; the POST goes to the command API port, to the route `v1/<key>/recording/start` or `.../stop`, and its body reads back as the input |
| `Dispatch.CalibratePlan` | SyncRecordingApp/Program.cs:248-266 | one POST, to the command API port and the route `v1/<key>/calibrate`, whose body reads back as the calibrate input: empty device id, countdown 1, other fields default |
| `Dispatch.Execute` | SyncRecordingApp/Program.cs:301-320 | calls complete in order while none raises; the first that raises is caught and ends the command; nothing is caught exactly when every call completed, which is exactly when no call of the plan raises |
| `DispatchProperties.DefaultBroadcastPorts` | SyncRecordingApp/Program.cs:57-59 | with the default broadcast port, a recording command broadcasts on 1512 and then on the declared second port 1510, and without transport faults every call is made |
| `DispatchProperties.RecordingUriInjective` | SyncRecordingApp/Program.cs:295-296 | a recording route determines whether it starts or stops and the key text it was built from |
| `DispatchProperties.RoutesDistinct` | SyncRecordingApp/Program.cs:295-296 | for one key, the start, stop and calibrate routes differ |
| `DispatchProperties.UdpFaultSkipsPost` | SyncRecordingApp/Program.cs:301-320 | when either broadcast call raises, the exception is caught at a broadcast call and no POST is made |
| `DispatchProperties.FaultFreeRecording` | SyncRecordingApp/Program.cs:304-315 | without transport faults, and with both broadcast ports in 1..65535, every planned call is made, in order |
| `DispatchProperties.PortTwoSkipsPost` | SyncRecordingApp/Program.cs:301-320 | with the accepted broadcast port 2, the second datagram goes to port 0 and raises, so only the first send completes and the POST is never made, even without transport faults |
| `DispatchProperties.PacketReadsBack` | SyncRecordingApp/Program.cs:297-298 | for a name and time code made of XML `Char`s other than `"`, `<` and `&`: another bridge relays a recording packet with the same command, name and time code; the sender's own listener sees an echo |
| `Bridge.KeyNext` | SyncRecordingApp/Program.cs:122-153 | no key changes the configuration or whether the listener was started |
| `Bridge.KeyPlan` | SyncRecordingApp/Program.cs:124-137 | calls are planned exactly for `z`, `c` and `x` with a non-empty line, and every plan ends with the POST; `KeyPlans` states which plan each key gets |
| `Bridge.HandleKey` | SyncRecordingApp/Program.cs:122-153 | a key's outcome is its plan run with the given faults, and the configuration is kept |
| `Bridge.Run` | SyncRecordingApp/Program.cs:118-154 | the loop handles at most one key per press, stops early only once `isRunning` is off, and keeps the configuration |
| `Bridge.ListenerStep` | SyncRecordingApp/Program.cs:180-216 | the listener handles a datagram exactly when it was started and `isRunning` holds |
| `Bridge.SeedDefaults` | SyncRecordingApp/Program.cs:79-88 | a table that already holds settings is left as it is |
| `Bridge.Boot` | SyncRecordingApp/Program.cs:77-116 | a successful start-up has valid ports, runs verbose with no recording name, listens exactly when receiving is on, and keeps the process id |
| `Bridge.ReadInt` | SyncRecordingApp/Program.cs:92-94 | the default when the pair is absent; succeeds exactly when `GetSetting(int)` does, with its value, and otherwise raises naming the section and key |
| `BridgeProperties.KeyFlags` | SyncRecordingApp/Program.cs:122-153 | `s`, `r` and `v` each flip their own flag and no other key does; only `q` clears `isRunning`; only `x` sets the name, to the line read |
| `BridgeProperties.KeyPlans` | SyncRecordingApp/Program.cs:124-137 | calls are planned exactly for `z`, `c`, and `x` with a non-empty line; the recording keys broadcast exactly while sending is on |
| `BridgeProperties.OtherKeyChangesNothing` | SyncRecordingApp/Program.cs:122-153 | a key outside the switch changes nothing and sends nothing |
| `BridgeProperties.StopAfterStart` | SyncRecordingApp/Program.cs:124-134 | `z` after `x` stops with the line `x` read, even an empty one for which `x` sent nothing |
| `BridgeProperties.FaultsDoNotChangeSession` | SyncRecordingApp/Program.cs:301-320 | whatever calls raise, the session after a key and its plan are the same |
| `BridgeProperties.QuitEndsRun` | SyncRecordingApp/Program.cs:150-152 | after `q` no further key press is handled |
| `BridgeProperties.ReceiveToggleIgnoredByListener` | SyncRecordingApp/Program.cs:142-145 | a listener step treats every datagram the same before and after `r` |
| `BridgeProperties.ListenerRelaysOnePost` | SyncRecordingApp/Program.cs:204-215 | a running listener relays an accepted packet as exactly one POST to the start or stop route, with no broadcast, and plans nothing otherwise |
| `BridgeProperties.DefaultPortTexts` | SyncRecordingApp/Program.cs:41-58 | the two default ports are written as "1512" and "14053" |
| `BridgeProperties.SeedTable` | SyncRecordingApp/Program.cs:79-88 | an empty table is seeded with "Yes", "Yes", "1512", "14053" and "1234" under the five keys |
| `BridgeProperties.SeededSettings` | SyncRecordingApp/Program.cs:90-95 | read through the typed getters, the seeded table gives both flags on, ports 1512 and 14053, and key "1234" |
| `BridgeProperties.BootReads` | SyncRecordingApp/Program.cs:90-116 | start-up takes the values the getters read, and succeeds when both ports are valid |
| `BridgeProperties.BootFromEmptySettings` | SyncRecordingApp/Program.cs:77-116 | an empty settings file starts the bridge sending and receiving on port 1512, with the command API on port 14053 under key "1234" |

## Left out

- Sockets, HTTP and the file system are not modelled. A command's calls come back as a
  plan, and a fault is an index in `failing`. The file is the list of its lines, and a
  missing file is an empty table. The bytes on the wire and their ASCII or UTF-8
  encoding are not modelled. A BOM is not modelled either.
- `httpClient` is never null in the program, so the model always plans the POST.
- Concurrency: `async void`, `Task.Run`, and the listener racing the console on shared
  statics. The listener step is a separate function over the session.
- Console output, the clock (`DateTime.Now`, `Stopwatch`) and verbose logging change no
  state and are left out. Console input arrives as each turn's key and line. End of
  input (`ReadLine` returning null) is not modelled.
- `Process.GetCurrentProcess().Id` is a parameter.
- `GetLocalIPAddress` (DNS) is never called by the core.
- `UnpackHttpResponce` and the `ResponseMessage` type are left out. Reading the
  response only prints it, and its exceptions escape the `async Task`, which nobody
  awaits.
- The JSON text is modelled as its list of fields. Newtonsoft's formatting of strings
  and floats is not.
- The recording input's `ToString` formats a float and is never called.
- `CreateClient`'s headers are not modelled. Its base address is modelled only as the
  port check in `Boot`. How the relative route resolves against the base address is
  left out.
- XML: only the flat shape the bridge exchanges is parsed. The following are refused or
  not modelled:
  - other shapes of document (white space between tags, comments, declarations, other
    attributes);
  - entity and character references;
  - non-ASCII name characters, which XML allows in names (names here are ASCII
    letters, digits and `_ - .`).
- `FlatXml.Parse`: a document that `XmlDocument.LoadXml` accepts but that is not of the
  flat shape yields `None` here, so that direction is weaker than `LoadXml`.
- `Boot`: the listener builds an `IPEndPoint` for port P - 2 before its loop. For P of
  0 or 1 that raises inside an `async void` method, and this is not modelled.
- `VERSION_BETA` is declared but never used.
- Culture: `StartsWith`/`EndsWith` with one-character strings are modelled as ordinal
  comparisons. `int.ToString`/`int.Parse` use the invariant forms: ASCII digits and '-'.
- `Ini.LoadLines`: its own ensures states only that earlier settings are kept. What it
  adds is stated by the step lemmas and by `IniProperties.SaveLoadRoundTrip`.
- `FlatXml.ParseChildUnsafe`, `FlatXml.ParseChildrenUnsafe`, `FlatXml.ParseRenderUnsafe`:
  for `&` these state this model's refusal, not `LoadXml`'s. `LoadXml` expands a
  well-formed reference such as `&amp;` and raises only on a bare `&`.
- `BroadcastProperties.UnescapedPacketRaises`: for `&` it states this model's refusal.
  A quote-free name such as `R&amp;D` loads in the program and is relayed as `R&D`. It
  also covers only values without a `"`. A quote ends the attribute early, so what
  loads then depends on the rest of the value.
  For example, the name `x"/><Foo VALUE="` gives a packet that loads, with an extra
  `Foo` child.
- `Dispatch.Raises`: port 0 raising follows .NET's `UdpClient.Send` on a bound, unconnected
  socket, which is not part of this model. Other socket errors are only the set `failing`.
- `Decimal.ParseInt32`: .NET's integer parsing also accepts trailing NUL characters and
  culture-specific signs. The model accepts only the invariant forms.

=== FILE: bridge.dfy ===
/** The bridge's foreground session: start-up from the settings table, the console key
    switch with the state it keeps, the run loop that ends on `q`, and one iteration of
    the background listener. Console input, the clock and the transports are parameters;
    each command's calls are returned as a plan together with how the plan ran. */
module Bridge {
  import opened Wrappers
  import opened Decimal
  import opened Ini
  import opened CommandApi
  import opened Broadcast
  import opened Dispatch

  /** The time code the console's start and stop commands send. */
  const CONSOLE_TIMECODE: string := "0:0:0:0"

  /** The static fields `Main` and the listener share. `listening` records whether the
      listener was started, which is decided once, at start-up. */
  datatype Session = Session(
    sendXml: bool,
    receiveXml: bool,
    verbose: bool,
    isRunning: bool,
    lastRecordingName: string,
    listening: bool,
    cfg: Config)

  /** The state after a key, the calls the key's command plans, and how they ran. */
  datatype Step = Step(next: Session, plan: seq<Effect>, outcome: Outcome)

  /** A console start or stop: the broadcast leg only while sending is switched on. */
  function ConsoleRecording(s: Session, isStart: bool, name: string): seq<Effect> {
    RecordingPlan(s.cfg, isStart, name, CONSOLE_TIMECODE, FRAME_RATE_30, s.sendXml)
  }

  /** What a key of `Main`'s switch does to the session; `line` is what the console
      returns when `x` asks for a clip name, kept even when empty. */
  function KeyNext(s: Session, key: char, line: string): (r: Session)
    ensures r.cfg == s.cfg && r.listening == s.listening
  {
    match key
    case 'x' => s.(lastRecordingName := line)
    case 's' => s.(sendXml := !s.sendXml)
    case 'r' => s.(receiveXml := !s.receiveXml)
    case 'v' => s.(verbose := !s.verbose)
    case 'q' => s.(isRunning := false)
    case _ => s
  }

  /** The command a key sends: `x` starts a recording under a non-empty line, `z` stops
      the last one named, `c` calibrates; the other keys send nothing. */
  function KeyPlan(s: Session, key: char, line: string): (plan: seq<Effect>)
    ensures plan == [] <==> !(key == 'z' || key == 'c' || (key == 'x' && line != ""))
    ensures plan != [] ==> plan[|plan| - 1].HttpPost?
  {
    match key
    case 'x' => if line != "" then ConsoleRecording(s, true, line) else []
    case 'z' => ConsoleRecording(s, false, s.lastRecordingName)
    case 'c' => CalibratePlan(s.cfg)
    case _ => []
  }

  /** The key switch of `Main`; `failing` says which calls of the command raise. */
  function HandleKey(s: Session, key: char, line: string, failing: set<nat>): (r: Step)
    ensures r.outcome == Execute(r.plan, failing)
    ensures r.next.cfg == s.cfg && r.next.listening == s.listening
  {
    var plan := KeyPlan(s, key, line);
    Step(KeyNext(s, key, line), plan, Execute(plan, failing))
  }

  /** One key press with the line read after it and the calls that raise. */
  datatype Turn = Turn(key: char, line: string, failing: set<nat>)

  /** The `while (isRunning)` loop of `Main` over the given key presses: the final
      state and the outcome of each key handled. Presses after the loop ends are not
      read. */
  function Run(s: Session, turns: seq<Turn>): (r: (Session, seq<Outcome>))
    ensures |r.1| <= |turns|
    ensures |r.1| < |turns| ==> !r.0.isRunning
    ensures r.0.cfg == s.cfg
    decreases |turns|
  {
    if !s.isRunning || |turns| == 0 then (s, [])
    else
      var step := HandleKey(s, turns[0].key, turns[0].line, turns[0].failing);
      var rest := Run(step.next, turns[1..]);
      (rest.0, [step.outcome] + rest.1)
  }

  // ---------------------------------------------------------------- listener

  /** What one listener iteration heard and did. */
  datatype Heard = Heard(decision: PacketOutcome, plan: seq<Effect>, outcome: Outcome)

  /** One iteration of the listener loop on a datagram: `None` when the listener is not
      receiving (it was never started, or `isRunning` is off). A relayed packet is sent
      with no UDP client, so only the POST is planned. */
  function ListenerStep(s: Session, datagram: string, failing: set<nat>): (r: Option<Heard>)
    ensures r.Some? <==> s.listening && s.isRunning
  {
    if !s.listening || !s.isRunning then None
    else
      var decision := DecodeDatagram(datagram, s.cfg.processId);
      var plan := if decision.Relay? then
        RecordingPlan(s.cfg, decision.isStart, decision.name, decision.timecode, FRAME_RATE_30, false)
      else [];
      Some(Heard(decision, plan, Execute(plan, failing)))
  }

  // ---------------------------------------------------------------- start-up

  const XML_SECTION: string := "XML Commands"
  const API_SECTION: string := "Command API"
  const DO_SEND: string := "Do Send"
  const DO_RECEIVE: string := "Do Receive"
  const PORT: string := "Port"
  const KEY: string := "Key"

  /** The settings `Main` writes when the file held none (and then saves). */
  function SeedDefaults(t: Table): (r: Table)
    ensures !IsEmpty(t) ==> r == t
  {
    if !IsEmpty(t) then t
    else
      var t1 := AddBool(t, XML_SECTION, DO_SEND, true);
      var t2 := AddBool(t1, XML_SECTION, DO_RECEIVE, true);
      var t3 := AddInt(t2, XML_SECTION, PORT, PORT_COMMAND_XML);
      var t4 := AddInt(t3, API_SECTION, PORT, COMMAND_API_DEFAULT_PORT);
      AddString(t4, API_SECTION, KEY, Some(API_KEY))
  }

  /** Why start-up raised: an int setting `int.Parse` refused, a command API port the
      client's base address refuses, or a broadcast port the socket cannot bind. */
  datatype BootError =
    | BadSetting(section: string, key: string, error: SettingError)
    | BadApiPort(apiPort: Int32)
    | BadBindPort(port: Int32)

  function ReadInt(t: Table, section: string, key: string, default: Int32): (r: Result<Int32, BootError>)
    ensures (section, key) !in t ==> r == Success(default)
    ensures r.Success? <==> GetInt(t, section, key, default).Success?
    ensures r.Success? ==> r.value == GetInt(t, section, key, default).value
    ensures r.Failure? ==> r.error == BadSetting(section, key, GetInt(t, section, key, default).error)
  {
    match GetInt(t, section, key, default)
    case Success(n) => Success(n)
    case Failure(e) => Failure(BadSetting(section, key, e))
  }

  /** `Main` up to the key loop, on the table read from the settings file: seed it if
      empty, read the settings, create the client, bind the socket. */
  function Boot(t: Table, pid: Int32): (r: Result<Session, BootError>)
    ensures r.Success? ==> ValidPort(r.value.cfg.portCommandXml) && ValidPort(r.value.cfg.apiPort)
    ensures r.Success? ==> r.value.isRunning && r.value.verbose && r.value.lastRecordingName == ""
    ensures r.Success? ==> r.value.listening == r.value.receiveXml && r.value.cfg.processId == pid
  {
    var t := SeedDefaults(t);
    var send := GetBool(t, XML_SECTION, DO_SEND, true);
    var receive := GetBool(t, XML_SECTION, DO_RECEIVE, true);
    var port :- ReadInt(t, XML_SECTION, PORT, PORT_COMMAND_XML);
    var apiPort :- ReadInt(t, API_SECTION, PORT, COMMAND_API_DEFAULT_PORT);
    var key := GetString(t, API_SECTION, KEY, Some(API_KEY));
    if !ValidPort(apiPort) then Failure(BadApiPort(apiPort))
    else if !ValidPort(port) then Failure(BadBindPort(port))
    else Success(Session(send, receive, true, true, "", receive, Config(port, apiPort, key, pid)))
  }
}

=== FILE: bridge_properties.dfy ===
/** What the session promises: each key changes exactly what it names, `x` keeps the
    line it read even when empty and `z` stops with it, `q` ends the loop, the receive
    toggle never reaches a running listener, a relayed packet becomes exactly one POST,
    transport faults never change the session, and an empty settings table starts the
    bridge with its defaults. */
module BridgeProperties {
  import opened Wrappers
  import opened Decimal
  import opened Ini
  import opened IniProperties
  import opened CommandApi
  import opened Broadcast
  import opened Dispatch
  import opened Bridge

  /** `s`, `r` and `v` each flip their own flag and no key flips another's; `q` and
      only `q` clears `isRunning`; only `x` sets the last recording name, to the line
      it read. */
  lemma KeyFlags(s: Session, key: char, line: string, failing: set<nat>)
    ensures var n := HandleKey(s, key, line, failing).next;
      && (n.sendXml != s.sendXml <==> key == 's')
      && (n.receiveXml != s.receiveXml <==> key == 'r')
      && (n.verbose != s.verbose <==> key == 'v')
      && (n.isRunning <==> s.isRunning && key != 'q')
      && n.lastRecordingName == (if key == 'x' then line else s.lastRecordingName)
  {
    var n := HandleKey(s, key, line, failing).next;
    if key == 'x' {
      assert n == s.(lastRecordingName := line);
    } else if key == 's' {
      assert n == s.(sendXml := !s.sendXml);
    } else if key == 'r' {
      assert n == s.(receiveXml := !s.receiveXml);
    } else if key == 'v' {
      assert n == s.(verbose := !s.verbose);
    } else if key == 'q' {
      assert n == s.(isRunning := false);
    } else {
      assert n == s;
    }
  }

  /** A key plans calls exactly when it is `z`, `c`, or `x` with a non-empty line; the
      recording keys broadcast exactly when sending is switched on. */
  lemma KeyPlans(s: Session, key: char, line: string, failing: set<nat>)
    ensures var plan := HandleKey(s, key, line, failing).plan;
      && (|plan| > 0 <==> key == 'z' || key == 'c' || (key == 'x' && line != ""))
      && ((exists j :: 0 <= j < |plan| && plan[j].UdpSend?) <==> s.sendXml && (key == 'z' || (key == 'x' && line != "")))
  {
    var plan := HandleKey(s, key, line, failing).plan;
    if s.sendXml && (key == 'z' || (key == 'x' && line != "")) {
      assert plan[0].UdpSend?;
    } else if key == 'z' || (key == 'x' && line != "") || key == 'c' {
      assert |plan| == 1 && plan[0].HttpPost?;
    }
  }

  /** A key outside the switch changes nothing and plans nothing. */
  lemma OtherKeyChangesNothing(s: Session, key: char, line: string, failing: set<nat>)
    requires key !in "xzcsrvq"
    ensures HandleKey(s, key, line, failing) == Step(s, [], NOTHING_DONE)
  {
    assert key != 'x' && key != 'z' && key != 'c' && key != 's' && key != 'r' && key != 'v' && key != 'q' by {
      assert "xzcsrvq"[0] == 'x' && "xzcsrvq"[1] == 'z' && "xzcsrvq"[2] == 'c' && "xzcsrvq"[3] == 's';
      assert "xzcsrvq"[4] == 'r' && "xzcsrvq"[5] == 'v' && "xzcsrvq"[6] == 'q';
    }
  }

  /** `z` after `x` stops with the line `x` read, even an empty one (for which `x`
      itself sent nothing). */
  lemma StopAfterStart(s: Session, line: string, line2: string, f1: set<nat>, f2: set<nat>)
    ensures var started := HandleKey(s, 'x', line, f1);
      && (started.plan == if line == "" then [] else RecordingPlan(s.cfg, true, line, CONSOLE_TIMECODE, FRAME_RATE_30, s.sendXml))
      && HandleKey(started.next, 'z', line2, f2).plan == RecordingPlan(s.cfg, false, line, CONSOLE_TIMECODE, FRAME_RATE_30, s.sendXml)
  {
  }

  /** Whatever calls raise, the session after a key is the same, and so is the plan:
      every exception is caught inside the command. */
  lemma FaultsDoNotChangeSession(s: Session, key: char, line: string, f1: set<nat>, f2: set<nat>)
    ensures HandleKey(s, key, line, f1).next == HandleKey(s, key, line, f2).next
    ensures HandleKey(s, key, line, f1).plan == HandleKey(s, key, line, f2).plan
  {
  }

  /** `q` clears `isRunning` and sends nothing. */
  lemma QuitStops(s: Session, line: string, failing: set<nat>)
    ensures !HandleKey(s, 'q', line, failing).next.isRunning
    ensures HandleKey(s, 'q', line, failing).outcome == NOTHING_DONE
  {
    assert KeyPlan(s, 'q', line) == [];
  }

  /** Once `q` is handled the loop ends: no later key press is read. */
  lemma {:induction false} QuitEndsRun(s: Session, turns: seq<Turn>, i: nat)
    requires i < |turns| && turns[i].key == 'q'
    ensures |Run(s, turns).1| <= i + 1
    ensures |Run(s, turns).1| == i + 1 ==> Run(s, turns).1[i] == NOTHING_DONE
    decreases i
  {
    if s.isRunning && i > 0 {
      var step := HandleKey(s, turns[0].key, turns[0].line, turns[0].failing);
      QuitEndsRun(step.next, turns[1..], i - 1);
      assert turns[1..][i - 1] == turns[i];
    } else if s.isRunning {
      var step := HandleKey(s, 'q', turns[0].line, turns[0].failing);
      QuitStops(s, turns[0].line, turns[0].failing);
      assert Run(step.next, turns[1..]) == (step.next, []);
    }
  }

  /** The receive toggle only flips its flag: a listener step sees the same datagram
      the same way before and after `r`. */
  lemma ReceiveToggleIgnoredByListener(s: Session, line: string, f: set<nat>, datagram: string, g: set<nat>)
    ensures ListenerStep(HandleKey(s, 'r', line, f).next, datagram, g) == ListenerStep(s, datagram, g)
  {
  }

  /** A running listener relays an accepted packet as exactly one POST to the start or
      stop route, with no broadcast, and plans nothing for any other packet. */
  lemma ListenerRelaysOnePost(s: Session, datagram: string, failing: set<nat>)
    requires s.listening && s.isRunning
    ensures var h := ListenerStep(s, datagram, failing).value;
      && h.decision == DecodeDatagram(datagram, s.cfg.processId)
      && (h.decision.Relay? ==>
            && |h.plan| == 1 && h.plan[0].HttpPost?
            && h.plan[0].uri == RecordingUri(s.cfg.apiKey, h.decision.isStart)
            && RecordingFromFields(h.plan[0].body) == Some(RecordingInputFor(h.decision.name, h.decision.timecode, FRAME_RATE_30)))
      && (!h.decision.Relay? ==> h.plan == [])
  {
  }

  /** Five additions of distinct keys: each key reads back the value added for it. */
  lemma AddFive(t: Table, k1: Pair, v1: Option<string>, k2: Pair, v2: Option<string>, k3: Pair, v3: Option<string>,
                k4: Pair, v4: Option<string>, k5: Pair, v5: Option<string>)
    requires k1 != k2 && k1 != k3 && k1 != k4 && k1 != k5 && k2 != k3 && k2 != k4 && k2 != k5
    requires k3 != k4 && k3 != k5 && k4 != k5
    ensures var r := AddString(AddString(AddString(AddString(AddString(t, k1.0, k1.1, v1), k2.0, k2.1, v2), k3.0, k3.1, v3), k4.0, k4.1, v4), k5.0, k5.1, v5);
      r[k1] == v1 && r[k2] == v2 && r[k3] == v3 && r[k4] == v4 && r[k5] == v5
  {
  }

  /** The decimal text of the two default ports. */
  lemma DefaultPortTexts()
    ensures IntToString(PORT_COMMAND_XML) == "1512" && IntToString(COMMAND_API_DEFAULT_PORT) == "14053"
  {
    assert NatToDigits(1) == "1";
    assert NatToDigits(15) == "15";
    assert NatToDigits(151) == "151";
    assert NatToDigits(1512) == "1512";
    assert NatToDigits(14) == "14";
    assert NatToDigits(140) == "140";
    assert NatToDigits(1405) == "1405";
    assert NatToDigits(14053) == "14053";
  }

  /** The table `Main` seeds when the settings file held nothing: the flags as "Yes",
      the ports in decimal, and the key. */
  lemma SeedTable()
    ensures var t := SeedDefaults(map[]);
      && t[(XML_SECTION, DO_SEND)] == Some(BOOL_VALUE_YES)
      && t[(XML_SECTION, DO_RECEIVE)] == Some(BOOL_VALUE_YES)
      && t[(XML_SECTION, PORT)] == Some(IntToString(PORT_COMMAND_XML))
      && t[(API_SECTION, PORT)] == Some(IntToString(COMMAND_API_DEFAULT_PORT))
      && t[(API_SECTION, KEY)] == Some(API_KEY)
    ensures var t := SeedDefaults(map[]);
      t[(XML_SECTION, PORT)] == Some("1512") && t[(API_SECTION, PORT)] == Some("14053")
  {
    DefaultPortTexts();
    assert |XML_SECTION| != |API_SECTION|;
    assert |DO_SEND| != |DO_RECEIVE| && |DO_SEND| != |PORT| && |DO_RECEIVE| != |PORT| && |PORT| != |KEY|;
    AddFive(map[], (XML_SECTION, DO_SEND), Some(BOOL_VALUE_YES), (XML_SECTION, DO_RECEIVE), Some(BOOL_VALUE_YES),
            (XML_SECTION, PORT), Some(IntToString(PORT_COMMAND_XML)), (API_SECTION, PORT), Some(IntToString(COMMAND_API_DEFAULT_PORT)),
            (API_SECTION, KEY), Some(API_KEY));
  }

  /** Read back through the typed getters, the seeded table yields both flags on, the
      two default ports and the default key. */
  lemma SeededSettings()
    ensures var t := SeedDefaults(map[]);
      && GetBool(t, XML_SECTION, DO_SEND, false) && GetBool(t, XML_SECTION, DO_RECEIVE, false)
      && GetInt(t, XML_SECTION, PORT, 0) == Success(PORT_COMMAND_XML)
      && GetInt(t, API_SECTION, PORT, 0) == Success(COMMAND_API_DEFAULT_PORT)
      && GetString(t, API_SECTION, KEY, None) == Some(API_KEY)
  {
    SeedTable();
    ParseIntToString(PORT_COMMAND_XML);
    ParseIntToString(COMMAND_API_DEFAULT_PORT);
  }

  /** Start-up reads the seeded table through the typed getters, and succeeds when
      both ports are valid. */
  lemma BootReads(t0: Table, pid: Int32, send: bool, receive: bool, port: Int32, apiPort: Int32, key: Option<string>)
    requires var t := SeedDefaults(t0);
      && GetBool(t, XML_SECTION, DO_SEND, true) == send && GetBool(t, XML_SECTION, DO_RECEIVE, true) == receive
      && GetInt(t, XML_SECTION, PORT, PORT_COMMAND_XML) == Success(port)
      && GetInt(t, API_SECTION, PORT, COMMAND_API_DEFAULT_PORT) == Success(apiPort)
      && GetString(t, API_SECTION, KEY, Some(API_KEY)) == key
    requires ValidPort(port) && ValidPort(apiPort)
    ensures Boot(t0, pid) == Success(Session(send, receive, true, true, "", receive, Config(port, apiPort, key, pid)))
  {
  }

  /** An empty settings table starts the bridge sending and receiving on port 1512,
      with the command API on port 14053 under key "1234". */
  lemma BootFromEmptySettings(pid: Int32)
    ensures Boot(map[], pid) == Success(Session(true, true, true, true, "", true,
                                                Config(PORT_COMMAND_XML, COMMAND_API_DEFAULT_PORT, Some(API_KEY), pid)))
  {
    var t := SeedDefaults(map[]);
    SeededSettings();
    assert GetBool(t, XML_SECTION, DO_SEND, true) && GetBool(t, XML_SECTION, DO_RECEIVE, true);
    assert GetInt(t, XML_SECTION, PORT, PORT_COMMAND_XML) == Success(PORT_COMMAND_XML);
    assert GetInt(t, API_SECTION, PORT, COMMAND_API_DEFAULT_PORT) == Success(COMMAND_API_DEFAULT_PORT);
    assert GetString(t, API_SECTION, KEY, Some(API_KEY)) == Some(API_KEY);
    BootReads(map[], pid, true, true, PORT_COMMAND_XML, COMMAND_API_DEFAULT_PORT, Some(API_KEY));
  }
}

=== FILE: broadcast.dfy ===
/** The broadcast command packets exchanged with the capture software: the text the
    bridge generates for a start or stop, and the decision the listener takes on a
    datagram it receives (relay it, ignore it, or catch the exception it raises). */
module Broadcast {
  import opened Wrappers
  import opened Strings
  import opened Decimal
  import opened FlatXml

  const CAPTURE_START: string := "CaptureStart"
  const CAPTURE_STOP: string := "CaptureStop"

  /** What the listener relays when the packet has no `Name` or no `TimeCode` child. */
  const DEFAULT_NAME: string := "Clip001"
  const DEFAULT_TIMECODE: string := "0:0:0:0"

  const TIME_CODE: string := "TimeCode"
  const NAME: string := "Name"
  const NOTES: string := "Notes"
  const DESCRIPTION: string := "Description"
  const DATABASE_PATH: string := "DatabasePath"
  const PACKET_ID: string := "PacketID"
  const PROCESS_ID: string := "ProcessID"

  /** The children of a generated packet, in the order they are written. */
  const PACKET_TAGS: seq<string> := [TIME_CODE, NAME, NOTES, DESCRIPTION, DATABASE_PATH, PACKET_ID, PROCESS_ID]

  function CommandName(isStart: bool): string {
    if isStart then CAPTURE_START else CAPTURE_STOP
  }

  // ---------------------------------------------------------------- generating

  /** The element a generated packet stands for: seven children in the template's order,
      carrying the arguments as they are and the two ids in decimal. */
  function CommandElement(commandName: string, recordingName: string, timecode: string, notes: string,
                          description: string, databasePath: string, packetId: Int32, processId: Int32): (e: Element)
    ensures e.tag == commandName
    ensures |e.children| == |PACKET_TAGS| && forall i :: 0 <= i < |PACKET_TAGS| ==> e.children[i].tag == PACKET_TAGS[i]
    ensures e.children[0].value == Some(timecode) && e.children[1].value == Some(recordingName)
    ensures e.children[2].value == Some(notes) && e.children[3].value == Some(description)
    ensures e.children[4].value == Some(databasePath)
    ensures e.children[5].value == Some(IntToString(packetId)) && e.children[6].value == Some(IntToString(processId))
  {
    Element(commandName, [
      Child(TIME_CODE, Some(timecode)),
      Child(NAME, Some(recordingName)),
      Child(NOTES, Some(notes)),
      Child(DESCRIPTION, Some(description)),
      Child(DATABASE_PATH, Some(databasePath)),
      Child(PACKET_ID, Some(IntToString(packetId))),
      Child(PROCESS_ID, Some(IntToString(processId)))])
  }

  /** `GenerateXMLCommand`: the packet text, built by appending the pieces of the fixed
      template with the arguments inserted verbatim. It is exactly the flat rendering of
      the command element, so nothing in the arguments is escaped. */
  function GenerateXmlCommand(commandName: string, recordingName: string, timecode: string, notes: string,
                              description: string, databasePath: string, packetId: Int32, processId: Int32): (s: string)
    ensures s == Render(CommandElement(commandName, recordingName, timecode, notes, description, databasePath, packetId, processId))
  {
    var p := [
      ValuePiece(TIME_CODE, timecode),
      ValuePiece(NAME, recordingName),
      ValuePiece(NOTES, notes),
      ValuePiece(DESCRIPTION, description),
      ValuePiece(DATABASE_PATH, databasePath),
      ValuePiece(PACKET_ID, IntToString(packetId)),
      ValuePiece(PROCESS_ID, IntToString(processId))];
    RenderSeven(CommandElement(commandName, recordingName, timecode, notes, description, databasePath, packetId, processId).children, p);
    AppendSeven("<" + commandName + ">", p);
    "<" + commandName + ">" + p[0] + p[1] + p[2] + p[3] + p[4] + p[5] + p[6] + "</" + commandName + ">"
  }

  /** One `<Tag VALUE="v"/>` piece of the template: the rendering of a child that has
      the value. */
  function ValuePiece(tag: string, v: string): (s: string)
    ensures s == RenderChild(Child(tag, Some(v)))
  {
    "<" + tag + " VALUE=\"" + v + "\"/>"
  }

  /** Seven children render as their renderings one after the other. */
  lemma RenderSeven(cs: seq<Child>, p: seq<string>)
    requires |cs| == 7 && |p| == 7
    requires forall k :: 0 <= k < 7 ==> p[k] == RenderChild(cs[k])
    ensures RenderChildren(cs) == p[0] + (p[1] + (p[2] + (p[3] + (p[4] + (p[5] + p[6])))))
  {
    assert RenderChildren(cs[6..]) == p[6] by { assert cs[6..][1..] == []; }
    assert RenderChildren(cs[5..]) == p[5] + p[6] by { assert cs[5..][1..] == cs[6..]; }
    assert RenderChildren(cs[4..]) == p[4] + (p[5] + p[6]) by { assert cs[4..][1..] == cs[5..]; }
    assert RenderChildren(cs[3..]) == p[3] + (p[4] + (p[5] + p[6])) by { assert cs[3..][1..] == cs[4..]; }
    assert RenderChildren(cs[2..]) == p[2] + (p[3] + (p[4] + (p[5] + p[6]))) by { assert cs[2..][1..] == cs[3..]; }
    assert RenderChildren(cs[1..]) == p[1] + (p[2] + (p[3] + (p[4] + (p[5] + p[6])))) by { assert cs[1..][1..] == cs[2..]; }
  }

  /** Appending seven pieces one by one is appending their right-nested concatenation. */
  lemma AppendSeven(h: string, p: seq<string>)
    requires |p| == 7
    ensures h + (p[0] + (p[1] + (p[2] + (p[3] + (p[4] + (p[5] + p[6]))))))
         == h + p[0] + p[1] + p[2] + p[3] + p[4] + p[5] + p[6]
  {
    AppendAssoc(h, p[0], p[1] + (p[2] + (p[3] + (p[4] + (p[5] + p[6])))));
    AppendAssoc(h + p[0], p[1], p[2] + (p[3] + (p[4] + (p[5] + p[6]))));
    AppendAssoc(h + p[0] + p[1], p[2], p[3] + (p[4] + (p[5] + p[6])));
    AppendAssoc(h + p[0] + p[1] + p[2], p[3], p[4] + (p[5] + p[6]));
    AppendAssoc(h + p[0] + p[1] + p[2] + p[3], p[4], p[5] + p[6]);
    AppendAssoc(h + p[0] + p[1] + p[2] + p[3] + p[4], p[5], p[6]);
  }

  // ---------------------------------------------------------------- decoding

  /** The index of the first child with the given tag, or the number of children. */
  function FirstIndex(cs: seq<Child>, tag: string): (i: nat)
    ensures i <= |cs|
    ensures forall j :: 0 <= j < i ==> cs[j].tag != tag
    ensures i < |cs| ==> cs[i].tag == tag
  {
    if |cs| == 0 then 0
    else if cs[0].tag == tag then 0
    else 1 + FirstIndex(cs[1..], tag)
  }

  /** `SelectSingleNode("root/tag")` on a document whose element is `doc`: the first
      `tag` child of the document element, provided that element is named `root`. */
  function SelectNode(doc: Element, root: string, tag: string): (r: Option<Child>)
    ensures r.Some? <==> doc.tag == root && exists i :: 0 <= i < |doc.children| && doc.children[i].tag == tag
    ensures r.Some? ==> r.value.tag == tag && r.value in doc.children
    ensures r.Some? ==> r.value == doc.children[FirstIndex(doc.children, tag)]
  {
    if doc.tag != root then None
    else
      var i := FirstIndex(doc.children, tag);
      if i < |doc.children| then Some(doc.children[i]) else None
  }

  /** Why the listener's `try` block raised. */
  datatype Fault =
    | Malformed                   // the text is not a document
    | MissingValue(tag: string)   // a selected node has no VALUE attribute

  /** What the listener does with one datagram. */
  datatype PacketOutcome =
    | NoCommand                                            // neither command node found
    | NotAnInteger                                         // the ProcessID value does not parse
    | SelfEcho                                             // sent by this very process
    | Relay(isStart: bool, name: string, timecode: string) // forwarded to the command API
    | Faulted(fault: Fault)                                // exception caught and logged

  /** `node.Attributes["VALUE"].Value`, which raises when the attribute is missing. */
  function AttributeValue(c: Child): Result<string, Fault> {
    match c.value
    case Some(v) => Success(v)
    case None => Failure(MissingValue(c.tag))
  }

  /** A node's value, or the default when the node is absent. */
  function ValueOrDefault(node: Option<Child>, default: string): Result<string, Fault> {
    match node
    case Some(c) => AttributeValue(c)
    case None => Success(default)
  }

  /** The ProcessID node the listener inspects, and whether it belongs to the start
      command: the start command's node is looked up first and the stop command's only
      when that is absent. */
  function PidNode(doc: Element): (r: Option<(bool, Child)>)
    ensures r.None? <==> (doc.tag != CAPTURE_START && doc.tag != CAPTURE_STOP)
                         || forall i :: 0 <= i < |doc.children| ==> doc.children[i].tag != PROCESS_ID
    ensures r.Some? ==> (r.value.0 <==> doc.tag == CAPTURE_START) && doc.tag == CommandName(r.value.0)
    ensures r.Some? ==> SelectNode(doc, doc.tag, PROCESS_ID) == Some(r.value.1)
  {
    assert CAPTURE_START != CAPTURE_STOP by { assert |CAPTURE_START| != |CAPTURE_STOP|; }
    match SelectNode(doc, CAPTURE_START, PROCESS_ID)
    case Some(node) => Some((true, node))
    case None =>
      match SelectNode(doc, CAPTURE_STOP, PROCESS_ID)
      case Some(node) => Some((false, node))
      case None => None
  }

  /** The check on the ProcessID node: `Some` of the outcome when the packet goes no
      further (the node has no VALUE, its value is not an integer, or it is the local
      process id), `None` when the packet is accepted. */
  function PidVerdict(node: Child, localPid: Int32): (r: Option<PacketOutcome>)
    ensures r == Some(Faulted(MissingValue(node.tag))) <==> node.value.None?
    ensures r == Some(NotAnInteger) <==> node.value.Some? && ParseInt32(node.value.value).None?
    ensures r == Some(SelfEcho) <==> node.value.Some? && ParseInt32(node.value.value) == Some(localPid)
    ensures r.None? <==> node.value.Some? && ParseInt32(node.value.value).Some? && ParseInt32(node.value.value).value != localPid
  {
    match AttributeValue(node)
    case Failure(f) => Some(Faulted(f))
    case Success(text) =>
      match ParseInt32(text)
      case None => Some(NotAnInteger)
      case Some(pid) => if pid == localPid then Some(SelfEcho) else None
  }

  /** A selected node that is present without a VALUE attribute: reading it raises. */
  predicate ValueMissing(node: Option<Child>) {
    node.Some? && node.value.value.None?
  }

  /** The name and time code of an accepted packet, each defaulted when its node is
      absent; reading the Name node first, so its missing value is the one reported. */
  function RelayFields(doc: Element, command: string): (r: Result<(string, string), Fault>)
    ensures r.Failure? <==> ValueMissing(SelectNode(doc, command, NAME)) || ValueMissing(SelectNode(doc, command, TIME_CODE))
    ensures r.Failure? ==> r.error == MissingValue(if ValueMissing(SelectNode(doc, command, NAME)) then NAME else TIME_CODE)
    ensures r.Success? ==> var n := SelectNode(doc, command, NAME);
              && (n.Some? ==> n.value.value == Some(r.value.0))
              && (n.None? ==> r.value.0 == DEFAULT_NAME)
    ensures r.Success? ==> var t := SelectNode(doc, command, TIME_CODE);
              && (t.Some? ==> t.value.value == Some(r.value.1))
              && (t.None? ==> r.value.1 == DEFAULT_TIMECODE)
  {
    var name :- ValueOrDefault(SelectNode(doc, command, NAME), DEFAULT_NAME);
    var timecode :- ValueOrDefault(SelectNode(doc, command, TIME_CODE), DEFAULT_TIMECODE);
    Success((name, timecode))
  }

  /** The body of the listener's `try` block on a parsed document: no ProcessID node
      means nothing to do; a missing VALUE raises; a non-integer or the local process id
      drops the packet; otherwise the packet is relayed with its name and time code. */
  function DecodeDocument(doc: Element, localPid: Int32): (r: PacketOutcome)
    ensures r == NoCommand <==> PidNode(doc).None?
    ensures r != Faulted(Malformed)
    ensures r.Relay? ==> (r.isStart <==> doc.tag == CAPTURE_START) && doc.tag == CommandName(r.isStart)
  {
    match PidNode(doc)
    case None => NoCommand
    case Some((isStart, node)) =>
      match PidVerdict(node, localPid)
      case Some(dropped) => dropped
      case None =>
        match RelayFields(doc, CommandName(isStart))
        case Failure(f) => Faulted(f)
        case Success((name, timecode)) => Relay(isStart, name, timecode)
  }

  /** One datagram, already decoded as UTF-8 text: `LoadXml` raises on text that is not
      a document. */
  function DecodeDatagram(text: string, localPid: Int32): (r: PacketOutcome)
    ensures r == Faulted(Malformed) <==> Parse(text).None?
    ensures r == NoCommand <==> Parse(text).Some? && PidNode(Parse(text).value).None?
  {
    match Parse(text)
    case None => Faulted(Malformed)
    case Some(doc) => DecodeDocument(doc, localPid)
  }
}

=== FILE: broadcast_properties.dfy ===
/** What the listener's decision promises: generated packets read back, self-echoes
    and non-integer ids are dropped, the start command is looked up before the stop
    command, and absent names and time codes take their defaults. */
module BroadcastProperties {
  import opened Wrappers
  import opened Decimal
  import opened FlatXml
  import opened Broadcast

  /** Decimal text of an integer is written and read back unchanged inside a value. */
  lemma IntTextIsSafe(n: int)
    ensures IsSafeValue(IntToString(n))
  {
    var s := IntToString(n);
    forall i | 0 <= i < |s| ensures IsValueChar(s[i]) {
      if n < 0 && i > 0 {
        assert s[i] == s[1..][i - 1];
      }
    }
  }

  /** The first child with a tag is found where it is. */
  lemma FirstIndexAt(cs: seq<Child>, i: nat, tag: string)
    requires i < |cs| && cs[i].tag == tag
    requires forall j :: 0 <= j < i ==> cs[j].tag != tag
    ensures FirstIndex(cs, tag) == i
  {
  }

  /** A packet generated for either command, with values that need no escaping,
      renders a document the parser reads back. */
  lemma CommandElementWellFormed(isStart: bool, name: string, timecode: string, notes: string,
                                 description: string, databasePath: string, packetId: Int32, processId: Int32)
    requires IsSafeValue(name) && IsSafeValue(timecode) && IsSafeValue(notes)
    requires IsSafeValue(description) && IsSafeValue(databasePath)
    ensures WellFormed(CommandElement(CommandName(isStart), name, timecode, notes, description, databasePath, packetId, processId))
  {
    IntTextIsSafe(packetId);
    IntTextIsSafe(processId);
    TagsAreNames();
    var e := CommandElement(CommandName(isStart), name, timecode, notes, description, databasePath, packetId, processId);
    assert forall k :: 0 <= k < 7 ==> IsName(e.children[k].tag);
  }

  /** The command names and the packet's child tags are XML names. */
  lemma TagsAreNames()
    ensures IsName(CAPTURE_START) && IsName(CAPTURE_STOP)
    ensures forall k :: 0 <= k < |PACKET_TAGS| ==> IsName(PACKET_TAGS[k])
  {
    assert IsName(CAPTURE_START);
    assert IsName(CAPTURE_STOP);
    assert IsName(TIME_CODE);
    assert IsName(NAME);
    assert IsName(NOTES);
    assert IsName(DESCRIPTION);
    assert IsName(DATABASE_PATH);
    assert IsName(PACKET_ID);
    assert IsName(PROCESS_ID);
  }

  /** In a generated packet the ProcessID node is the seventh child, found under the
      packet's own command. */
  lemma GeneratedPidNode(isStart: bool, name: string, timecode: string, notes: string, description: string,
                         databasePath: string, packetId: Int32, processId: Int32)
    ensures var e := CommandElement(CommandName(isStart), name, timecode, notes, description, databasePath, packetId, processId);
      PidNode(e) == Some((isStart, Child(PROCESS_ID, Some(IntToString(processId)))))
  {
    var e := CommandElement(CommandName(isStart), name, timecode, notes, description, databasePath, packetId, processId);
    var cs := e.children;
    assert |TIME_CODE| != |PROCESS_ID| && |NAME| != |PROCESS_ID| && |NOTES| != |PROCESS_ID|;
    assert |DESCRIPTION| != |PROCESS_ID| && |DATABASE_PATH| != |PROCESS_ID| && |PACKET_ID| != |PROCESS_ID|;
    FirstIndexAt(cs, 6, PROCESS_ID);
    assert CAPTURE_START != CAPTURE_STOP by { assert |CAPTURE_START| != |CAPTURE_STOP|; }
  }

  /** In a generated packet the name and time code nodes are present and carry the
      arguments. */
  lemma GeneratedRelayFields(isStart: bool, name: string, timecode: string, notes: string, description: string,
                             databasePath: string, packetId: Int32, processId: Int32)
    ensures var e := CommandElement(CommandName(isStart), name, timecode, notes, description, databasePath, packetId, processId);
      RelayFields(e, CommandName(isStart)) == Success((name, timecode))
  {
    var e := CommandElement(CommandName(isStart), name, timecode, notes, description, databasePath, packetId, processId);
    var cs := e.children;
    assert |TIME_CODE| != |NAME|;
    FirstIndexAt(cs, 1, NAME);
    FirstIndexAt(cs, 0, TIME_CODE);
  }

  /** Round trip: the listener decodes a packet this bridge generated back into the same
      command, name and time code, unless it carries the listener's own process id, in
      which case it is recognised as an echo. */
  lemma DecodeGeneratedPacket(isStart: bool, name: string, timecode: string, notes: string, description: string,
                              databasePath: string, packetId: Int32, processId: Int32, localPid: Int32)
    requires IsSafeValue(name) && IsSafeValue(timecode) && IsSafeValue(notes)
    requires IsSafeValue(description) && IsSafeValue(databasePath)
    ensures DecodeDatagram(GenerateXmlCommand(CommandName(isStart), name, timecode, notes, description, databasePath, packetId, processId), localPid)
         == if processId == localPid then SelfEcho else Relay(isStart, name, timecode)
  {
    var e := CommandElement(CommandName(isStart), name, timecode, notes, description, databasePath, packetId, processId);
    CommandElementWellFormed(isStart, name, timecode, notes, description, databasePath, packetId, processId);
    ParseRender(e);
    GeneratedPidNode(isStart, name, timecode, notes, description, databasePath, packetId, processId);
    GeneratedRelayFields(isStart, name, timecode, notes, description, databasePath, packetId, processId);
    ParseIntToString(processId);
  }

  /** `GenerateXMLCommand` escapes nothing: a packet one of whose text values holds a
      character outside XML's `Char`, a raw '<' or a raw '&' (and no quote) does not
      load at the listener, whose `try` raises. */
  lemma UnescapedPacketRaises(isStart: bool, name: string, timecode: string, notes: string, description: string,
                              databasePath: string, packetId: Int32, processId: Int32, localPid: Int32)
    requires QuoteFree(name) && QuoteFree(timecode) && QuoteFree(notes)
    requires QuoteFree(description) && QuoteFree(databasePath)
    requires !IsSafeValue(name) || !IsSafeValue(timecode) || !IsSafeValue(notes)
          || !IsSafeValue(description) || !IsSafeValue(databasePath)
    ensures DecodeDatagram(GenerateXmlCommand(CommandName(isStart), name, timecode, notes, description, databasePath, packetId, processId), localPid)
         == Faulted(Malformed)
  {
    var e := CommandElement(CommandName(isStart), name, timecode, notes, description, databasePath, packetId, processId);
    TagsAreNames();
    assert QuoteFree(IntToString(packetId)) && QuoteFree(IntToString(processId)) by {
      IntTextIsSafe(packetId);
      IntTextIsSafe(processId);
    }
    assert forall k :: 0 <= k < 7 ==> QuoteFreeChild(e.children[k]);
    if !IsSafeValue(name) {
      assert HasUnsafeValue(e.children[1]);
    } else if !IsSafeValue(timecode) {
      assert HasUnsafeValue(e.children[0]);
    } else if !IsSafeValue(notes) {
      assert HasUnsafeValue(e.children[2]);
    } else if !IsSafeValue(description) {
      assert HasUnsafeValue(e.children[3]);
    } else {
      assert HasUnsafeValue(e.children[4]);
    }
    ParseRenderUnsafe(e);
  }

  /** Round trip of the fields: a generated packet parses, the listener finds the
      ProcessID node of the packet's own command, that node's value reads back as the
      sender's process id, and the name and time code read back as generated. */
  lemma GeneratedPacketFields(isStart: bool, name: string, timecode: string, notes: string, description: string,
                              databasePath: string, packetId: Int32, processId: Int32)
    requires IsSafeValue(name) && IsSafeValue(timecode) && IsSafeValue(notes)
    requires IsSafeValue(description) && IsSafeValue(databasePath)
    ensures var doc := Parse(GenerateXmlCommand(CommandName(isStart), name, timecode, notes, description, databasePath, packetId, processId));
      && doc.Some?
      && PidNode(doc.value).Some? && PidNode(doc.value).value.0 == isStart
      && PidNode(doc.value).value.1.value.Some?
      && ParseInt32(PidNode(doc.value).value.1.value.value) == Some(processId)
      && RelayFields(doc.value, CommandName(isStart)) == Success((name, timecode))
  {
    var e := CommandElement(CommandName(isStart), name, timecode, notes, description, databasePath, packetId, processId);
    CommandElementWellFormed(isStart, name, timecode, notes, description, databasePath, packetId, processId);
    ParseRender(e);
    GeneratedPidNode(isStart, name, timecode, notes, description, databasePath, packetId, processId);
    GeneratedRelayFields(isStart, name, timecode, notes, description, databasePath, packetId, processId);
    ParseIntToString(processId);
  }

  /** The decision on a document with neither command's ProcessID is to do nothing, and
      it is the only document for which that is the decision. */
  lemma NoCommandIffNoProcessId(doc: Element, localPid: Int32)
    ensures DecodeDocument(doc, localPid) == NoCommand
        <==> ((doc.tag != CAPTURE_START && doc.tag != CAPTURE_STOP)
              || forall i :: 0 <= i < |doc.children| ==> doc.children[i].tag != PROCESS_ID)
  {
  }

  /** Given the first ProcessID child of a command document: the packet raises exactly
      when the child has no value, is dropped as not an integer exactly when the value
      does not parse, and is dropped as an echo exactly when the value reads as the
      local process id. */
  lemma ProcessIdDecision(doc: Element, localPid: Int32, i: nat)
    requires doc.tag == CAPTURE_START || doc.tag == CAPTURE_STOP
    requires i < |doc.children| && doc.children[i].tag == PROCESS_ID
    requires forall j :: 0 <= j < i ==> doc.children[j].tag != PROCESS_ID
    ensures var v := doc.children[i].value;
      && (DecodeDocument(doc, localPid) == Faulted(MissingValue(PROCESS_ID)) <==> v.None?)
      && (DecodeDocument(doc, localPid) == NotAnInteger <==> v.Some? && ParseInt32(v.value).None?)
      && (DecodeDocument(doc, localPid) == SelfEcho <==> v.Some? && ParseInt32(v.value) == Some(localPid))
  {
    DecodeAtProcessId(doc, localPid, i);
    assert MissingValue(PROCESS_ID) != MissingValue(NAME) && MissingValue(PROCESS_ID) != MissingValue(TIME_CODE) by {
      assert |NAME| != |PROCESS_ID| && |TIME_CODE| != |PROCESS_ID|;
    }
  }

  /** At the first ProcessID child of a command document, the decision is the verdict on
      that child when there is one, and otherwise a relay or a missing Name or TimeCode
      value. */
  lemma DecodeAtProcessId(doc: Element, localPid: Int32, i: nat)
    requires doc.tag == CAPTURE_START || doc.tag == CAPTURE_STOP
    requires i < |doc.children| && doc.children[i].tag == PROCESS_ID
    requires forall j :: 0 <= j < i ==> doc.children[j].tag != PROCESS_ID
    ensures var v := PidVerdict(doc.children[i], localPid);
      && (v.Some? ==> DecodeDocument(doc, localPid) == v.value)
      && (v.None? ==> DecodeDocument(doc, localPid).Relay?
                      || DecodeDocument(doc, localPid) == Faulted(MissingValue(NAME))
                      || DecodeDocument(doc, localPid) == Faulted(MissingValue(TIME_CODE)))
  {
    var isStart := doc.tag == CAPTURE_START;
    assert PidNode(doc) == Some((isStart, doc.children[i])) by {
      FirstIndexAt(doc.children, i, PROCESS_ID);
    }
    var r := DecodeDocument(doc, localPid);
    var v := PidVerdict(doc.children[i], localPid);
    if v.Some? {
      assert r == v.value;
    } else {
      var f := RelayFields(doc, CommandName(isStart));
      if f.Failure? {
        assert r == Faulted(f.error);
      } else {
        assert r == Relay(isStart, f.value.0, f.value.1);
      }
    }
  }

  /** The fields read from a command document: the value of the first Name (TimeCode)
      child, or "Clip001" ("0:0:0:0") when there is none. */
  lemma RelayFieldsValues(doc: Element, name: string, timecode: string)
    requires RelayFields(doc, doc.tag) == Success((name, timecode))
    ensures (forall i :: 0 <= i < |doc.children| ==> doc.children[i].tag != NAME) ==> name == DEFAULT_NAME
    ensures (forall i :: 0 <= i < |doc.children| ==> doc.children[i].tag != TIME_CODE) ==> timecode == DEFAULT_TIMECODE
    ensures forall i :: 0 <= i < |doc.children| && doc.children[i].tag == NAME ==>
              doc.children[FirstIndex(doc.children, NAME)] == Child(NAME, Some(name))
    ensures forall i :: 0 <= i < |doc.children| && doc.children[i].tag == TIME_CODE ==>
              doc.children[FirstIndex(doc.children, TIME_CODE)] == Child(TIME_CODE, Some(timecode))
  {
  }

  /** An accepted packet (its ProcessID reads as an integer other than the local id) is
      relayed exactly when its first Name child and its first TimeCode child, where
      present, carry a VALUE; it is relayed as its own command with those values, or
      "Clip001" and "0:0:0:0" for an absent child; otherwise the missing value raises,
      the Name node's first. */
  lemma RelayedDefaults(doc: Element, localPid: Int32)
    requires PidNode(doc).Some? && PidVerdict(PidNode(doc).value.1, localPid).None?
    ensures var r := DecodeDocument(doc, localPid);
      var cs := doc.children;
      var n := FirstIndex(cs, NAME);
      var t := FirstIndex(cs, TIME_CODE);
      && (r.Relay? <==> (n < |cs| ==> cs[n].value.Some?) && (t < |cs| ==> cs[t].value.Some?))
      && (r.Relay? ==> && r.isStart == PidNode(doc).value.0
                       && r.name == (if n < |cs| then cs[n].value.value else DEFAULT_NAME)
                       && r.timecode == (if t < |cs| then cs[t].value.value else DEFAULT_TIMECODE))
      && (!r.Relay? ==> r == Faulted(MissingValue(if n < |cs| && cs[n].value.None? then NAME else TIME_CODE)))
  {
    var isStart := PidNode(doc).value.0;
    var cs := doc.children;
    assert doc.tag == CommandName(isStart);
    var f := RelayFields(doc, doc.tag);
    assert DecodeDocument(doc, localPid) == if f.Success? then Relay(isStart, f.value.0, f.value.1) else Faulted(f.error);
    var n := FirstIndex(cs, NAME);
    var t := FirstIndex(cs, TIME_CODE);
    assert SelectNode(doc, doc.tag, NAME) == if n < |cs| then Some(cs[n]) else None;
    assert SelectNode(doc, doc.tag, TIME_CODE) == if t < |cs| then Some(cs[t]) else None;
  }

  /** A start document carrying only a process id and a name: relayed with that name
      and the default time code, unless the id is the local one. */
  lemma NamedStartDocument(pid: Int32, name: string, localPid: Int32)
    ensures var e := Element(CAPTURE_START, [Child(PROCESS_ID, Some(IntToString(pid))), Child(NAME, Some(name))]);
      DecodeDocument(e, localPid) == if pid == localPid then SelfEcho else Relay(true, name, DEFAULT_TIMECODE)
  {
    var e := Element(CAPTURE_START, [Child(PROCESS_ID, Some(IntToString(pid))), Child(NAME, Some(name))]);
    assert PidNode(e) == Some((true, e.children[0])) by {
      FirstIndexAt(e.children, 0, PROCESS_ID);
    }
    assert PidVerdict(e.children[0], localPid) == if pid == localPid then Some(SelfEcho) else None by {
      ParseIntToString(pid);
    }
    assert RelayFields(e, CAPTURE_START) == Success((name, DEFAULT_TIMECODE)) by {
      assert |NAME| != |PROCESS_ID| && |TIME_CODE| != |PROCESS_ID| && |TIME_CODE| != |NAME|;
      NameOnlyFields(CAPTURE_START, e.children[0], name);
    }
  }

  /** After a child that is neither, a `Name` child and no `TimeCode` child: the name is
      relayed with the default time code. */
  lemma NameOnlyFields(command: string, first: Child, name: string)
    requires first.tag != NAME && first.tag != TIME_CODE && NAME != TIME_CODE
    ensures RelayFields(Element(command, [first, Child(NAME, Some(name))]), command) == Success((name, DEFAULT_TIMECODE))
  {
    var e := Element(command, [first, Child(NAME, Some(name))]);
    FirstIndexAt(e.children, 1, NAME);
    assert SelectNode(e, command, NAME) == Some(e.children[1]);
    assert SelectNode(e, command, TIME_CODE).None?;
  }

  lemma NamedStartPacket(pid: Int32, name: string, localPid: Int32)
    requires IsSafeValue(name)
    ensures var e := Element(CAPTURE_START, [Child(PROCESS_ID, Some(IntToString(pid))), Child(NAME, Some(name))]);
      DecodeDatagram(Render(e), localPid) == if pid == localPid then SelfEcho else Relay(true, name, DEFAULT_TIMECODE)
  {
    var e := Element(CAPTURE_START, [Child(PROCESS_ID, Some(IntToString(pid))), Child(NAME, Some(name))]);
    TagsAreNames();
    IntTextIsSafe(pid);
    assert WellFormed(e);
    ParseRender(e);
    NamedStartDocument(pid, name, localPid);
  }

  /** An inbound start packet with id 999 and name "Remote" is relayed when the local
      process id is 500, and recognised as an echo when the packet carries 500 itself. */
  lemma RemoteStartPacket()
    ensures var remote := Element(CAPTURE_START, [Child(PROCESS_ID, Some("999")), Child(NAME, Some("Remote"))]);
      DecodeDatagram(Render(remote), 500) == Relay(true, "Remote", DEFAULT_TIMECODE)
    ensures var echo := Element(CAPTURE_START, [Child(PROCESS_ID, Some("500")), Child(NAME, Some("Remote"))]);
      DecodeDatagram(Render(echo), 500) == SelfEcho
  {
    assert IntToString(999) == "999" && IntToString(500) == "500";
    NamedStartPacket(999, "Remote", 500);
    NamedStartPacket(500, "Remote", 500);
  }

  /** A start packet whose name holds U+0001, which XML does not allow in a document,
      does not load: the listener's `try` raises. A tab in the name is kept as it is. */
  lemma NameCharacters(localPid: Int32)
    requires localPid != 7
    ensures var bad := Element(CAPTURE_START, [Child(PROCESS_ID, Some("7")), Child(NAME, Some("\U{1}"))]);
      DecodeDatagram(Render(bad), localPid) == Faulted(Malformed)
    ensures var tab := Element(CAPTURE_START, [Child(PROCESS_ID, Some("7")), Child(NAME, Some("a\tb"))]);
      DecodeDatagram(Render(tab), localPid) == Relay(true, "a\tb", DEFAULT_TIMECODE)
  {
    var bad := Element(CAPTURE_START, [Child(PROCESS_ID, Some("7")), Child(NAME, Some("\U{1}"))]);
    TagsAreNames();
    assert !IsSafeValue(bad.children[1].value.value) by {
      assert !IsXmlChar(bad.children[1].value.value[0]);
    }
    ParseRenderUnsafe(bad);
    assert IntToString(7) == "7";
    assert IsSafeValue("a\tb") by {
      assert forall i :: 0 <= i < |"a\tb"| ==> "a\tb"[i] in "a\tb";
    }
    NamedStartPacket(7, "a\tb", localPid);
  }

  /** An accepted start document with no Name and no TimeCode child is relayed with
      "Clip001" and "0:0:0:0". */
  lemma UnnamedStartDocument(pid: Int32, localPid: Int32)
    requires pid != localPid
    ensures var e := Element(CAPTURE_START, [Child(PROCESS_ID, Some(IntToString(pid)))]);
      DecodeDocument(e, localPid) == Relay(true, DEFAULT_NAME, DEFAULT_TIMECODE)
  {
    var e := Element(CAPTURE_START, [Child(PROCESS_ID, Some(IntToString(pid)))]);
    assert PidNode(e) == Some((true, e.children[0])) by {
      FirstIndexAt(e.children, 0, PROCESS_ID);
    }
    assert PidVerdict(e.children[0], localPid).None? by {
      ParseIntToString(pid);
    }
    assert |NAME| != |PROCESS_ID| && |TIME_CODE| != |PROCESS_ID|;
    AbsentFieldsDefault(e, CAPTURE_START);
  }

  /** With neither a Name nor a TimeCode child, both fields take their defaults. */
  lemma AbsentFieldsDefault(doc: Element, command: string)
    requires forall i :: 0 <= i < |doc.children| ==> doc.children[i].tag != NAME && doc.children[i].tag != TIME_CODE
    ensures RelayFields(doc, command) == Success((DEFAULT_NAME, DEFAULT_TIMECODE))
  {
    assert SelectNode(doc, command, NAME).None?;
    assert SelectNode(doc, command, TIME_CODE).None?;
  }

  /** The same document as a datagram. */
  lemma UnnamedStartPacket(pid: Int32, localPid: Int32)
    requires pid != localPid
    ensures var e := Element(CAPTURE_START, [Child(PROCESS_ID, Some(IntToString(pid)))]);
      DecodeDatagram(Render(e), localPid) == Relay(true, DEFAULT_NAME, DEFAULT_TIMECODE)
  {
    var e := Element(CAPTURE_START, [Child(PROCESS_ID, Some(IntToString(pid)))]);
    TagsAreNames();
    IntTextIsSafe(pid);
    assert WellFormed(e);
    ParseRender(e);
    UnnamedStartDocument(pid, localPid);
  }
}

=== FILE: command_api.dfy ===
/** The request bodies of the studio's command API: fixed JSON field names, the
    defaults each input starts from, the wire strings of the calibration pose, and
    the calibration input's text form. A body is modelled as its list of
    (field name, value) pairs in serialisation order. */
module CommandApi {
  import opened Wrappers
  import opened Decimal

  /** A single-precision float, carried as its IEEE 754 bit pattern and never inspected. */
  datatype Float32 = Float32(bits: bv32)

  /** 30.0f, the frame rate every recording request carries. */
  const FRAME_RATE_30: Float32 := Float32(0x41F0_0000)

  datatype JsonValue = JString(s: string) | JNull | JInt(i: int) | JBool(b: bool) | JFloat(f: Float32)

  type JsonObject = seq<(string, JsonValue)>

  function FieldNames(o: JsonObject): (names: seq<string>)
    ensures |names| == |o| && forall i :: 0 <= i < |o| ==> names[i] == o[i].0
  {
    seq(|o|, i requires 0 <= i < |o| => o[i].0)
  }

  /** The value of field `i` when that field has the given name. */
  function FieldAt(o: JsonObject, i: nat, name: string): (r: Option<JsonValue>)
    ensures r.Some? ==> i < |o| && o[i] == (name, r.value)
  {
    if i < |o| && o[i].0 == name then Some(o[i].1) else None
  }

  // ---------------------------------------------------------------- pose

  datatype Pose = TPose | StraightArmsDown | StraightArmsForward

  /** The enum's wire string (its `EnumMember` value under the string-enum converter). */
  function PoseWire(p: Pose): string {
    match p
    case TPose => "tpose"
    case StraightArmsDown => "straight-arms-down"
    case StraightArmsForward => "straight-arms-forward"
  }

  /** Reads a pose back from its wire string. */
  function PoseFromWire(s: string): (r: Option<Pose>)
    ensures r.Some? ==> PoseWire(r.value) == s
  {
    if s == "tpose" then Some(TPose)
    else if s == "straight-arms-down" then Some(StraightArmsDown)
    else if s == "straight-arms-forward" then Some(StraightArmsForward)
    else None
  }

  /** Every pose reads back from its wire string, so distinct poses have distinct strings. */
  lemma PoseWireRoundTrip(p: Pose, q: Pose)
    ensures PoseFromWire(PoseWire(p)) == Some(p)
    ensures PoseWire(p) == PoseWire(q) ==> p == q
  {
  }

  // ---------------------------------------------------------------- recording

  datatype RecordingInput = RecordingInput(filename: string, time: string, frameRate: Float32, backToLive: bool)

  /** The field initialisers of `CommandAPIRecordingInput`. */
  const DEFAULT_RECORDING_INPUT: RecordingInput := RecordingInput("", "00:00:00:00", FRAME_RATE_30, false)

  /** The input a recording command sends: name, timecode and frame rate set, the rest default. */
  function RecordingInputFor(name: string, timecode: string, frameRate: Float32): (r: RecordingInput)
    ensures r.filename == name && r.time == timecode && r.frameRate == frameRate
    ensures r.backToLive == DEFAULT_RECORDING_INPUT.backToLive
  {
    DEFAULT_RECORDING_INPUT.(filename := name, time := timecode, frameRate := frameRate)
  }

  function AsString(v: Option<JsonValue>): Option<string> {
    if v.Some? && v.value.JString? then Some(v.value.s) else None
  }

  function AsNullableString(v: Option<JsonValue>): Option<Option<string>> {
    if v.Some? && v.value.JString? then Some(Some(v.value.s))
    else if v == Some(JNull) then Some(None)
    else None
  }

  function AsBool(v: Option<JsonValue>): Option<bool> {
    if v.Some? && v.value.JBool? then Some(v.value.b) else None
  }

  function AsInt32(v: Option<JsonValue>): Option<Int32> {
    if v.Some? && v.value.JInt? && INT32_MIN <= v.value.i <= INT32_MAX then Some(v.value.i) else None
  }

  function AsFloat(v: Option<JsonValue>): Option<Float32> {
    if v.Some? && v.value.JFloat? then Some(v.value.f) else None
  }

  /** Reads a recording input back from a body with its fields in declaration order. */
  function RecordingFromFields(o: JsonObject): Option<RecordingInput> {
    var f :- AsString(FieldAt(o, 0, "filename"));
    var t :- AsString(FieldAt(o, 1, "time"));
    var r :- AsFloat(FieldAt(o, 2, "frame_rate"));
    var b :- AsBool(FieldAt(o, 3, "back_to_live"));
    if |o| == 4 then Some(RecordingInput(f, t, r, b)) else None
  }

  /** The body of a recording request: four fields under their JSON names, in
      declaration order, from which the input reads back. */
  function RecordingFields(r: RecordingInput): (o: JsonObject)
    ensures FieldNames(o) == ["filename", "time", "frame_rate", "back_to_live"]
    ensures RecordingFromFields(o) == Some(r)
  {
    [ ("filename", JString(r.filename)),
      ("time", JString(r.time)),
      ("frame_rate", JFloat(r.frameRate)),
      ("back_to_live", JBool(r.backToLive)) ]
  }

  // ---------------------------------------------------------------- calibration

  /** `deviceID` has no initialiser, so it may be null. */
  datatype CalibrationInput = CalibrationInput(
    deviceId: Option<string>,
    countdownDelay: Int32,
    skipSuit: bool,
    skipGloves: bool,
    useCustomPose: bool,
    pose: Pose)

  /** The field initialisers of `CommandAPICalibrationInput`. */
  const DEFAULT_CALIBRATION_INPUT: CalibrationInput := CalibrationInput(None, -1, false, false, false, StraightArmsDown)

  /** The input the calibrate command sends: all devices, a one-second countdown. */
  const CALIBRATE_COMMAND_INPUT: CalibrationInput := DEFAULT_CALIBRATION_INPUT.(deviceId := Some(""), countdownDelay := 1)

  function JsonOfNullable(s: Option<string>): JsonValue {
    match s
    case Some(v) => JString(v)
    case None => JNull
  }

  /** Reads a calibration input back from a body with its fields in declaration order. */
  function CalibrationFromFields(o: JsonObject): Option<CalibrationInput> {
    var d :- AsNullableString(FieldAt(o, 0, "device_id"));
    var c :- AsInt32(FieldAt(o, 1, "countdown_delay"));
    var s :- AsBool(FieldAt(o, 2, "skip_suit"));
    var g :- AsBool(FieldAt(o, 3, "skip_gloves"));
    var u :- AsBool(FieldAt(o, 4, "use_custom_pose"));
    var w :- AsString(FieldAt(o, 5, "pose"));
    var p :- PoseFromWire(w);
    if |o| == 6 then Some(CalibrationInput(d, c, s, g, u, p)) else None
  }

  /** The body of a calibrate request: six fields in declaration order, the pose under
      its member name and as its wire string, from which the input reads back. */
  function CalibrationFields(c: CalibrationInput): (o: JsonObject)
    ensures FieldNames(o) == ["device_id", "countdown_delay", "skip_suit", "skip_gloves", "use_custom_pose", "pose"]
    ensures CalibrationFromFields(o) == Some(c)
  {
    PoseWireRoundTrip(c.pose, c.pose);
    [ ("device_id", JsonOfNullable(c.deviceId)),
      ("countdown_delay", JInt(c.countdownDelay)),
      ("skip_suit", JBool(c.skipSuit)),
      ("skip_gloves", JBool(c.skipGloves)),
      ("use_custom_pose", JBool(c.useCustomPose)),
      ("pose", JString(PoseWire(c.pose))) ]
  }

  /** `CommandAPICalibrationInput.ToString()`: the device id (empty when null), a comma
      and a space, then the countdown in decimal. */
  function CalibrationToString(c: CalibrationInput): (s: string)
    ensures var d := c.deviceId.GetOr("");
      |s| > |d| + 2 && s[..|d|] == d && s[|d|..|d| + 2] == ", "
  {
    c.deviceId.GetOr("") + ", " + IntToString(c.countdownDelay)
  }

  /** The text starts with the device id, and the countdown reads back from what follows
      the separator, which holds no comma. */
  lemma CalibrationToStringParts(c: CalibrationInput)
    ensures var d := c.deviceId.GetOr("");
      var s := CalibrationToString(c);
      && s[..|d|] == d
      && s[|d|..|d| + 2] == ", "
      && ',' !in s[|d| + 2..]
      && ParseInt32(s[|d| + 2..]) == Some(c.countdownDelay)
  {
    var d := c.deviceId.GetOr("");
    var n := IntToString(c.countdownDelay);
    var s := CalibrationToString(c);
    assert s == d + ", " + n;
    assert s[..|d|] == d;
    assert s[|d|..|d| + 2] == ", ";
    assert s[|d| + 2..] == n;
    assert forall i :: 0 <= i < |n| ==> n[i] != ',' by {
      forall i | 0 <= i < |n| ensures n[i] != ',' {
        if c.countdownDelay < 0 && i > 0 {
          assert n[i] == n[1..][i - 1];
        }
      }
    }
    ParseIntToString(c.countdownDelay);
  }
}

=== FILE: decimal.dfy ===
/** Decimal text of 32-bit integers: `int.ToString()` and `int.Parse` /
    `int.TryParse` under `NumberStyles.Integer` with "-" and "+" as the sign symbols. */
module Decimal {
  import opened Wrappers
  import opened Strings

  const INT32_MIN: int := -0x8000_0000
  const INT32_MAX: int := 0x7FFF_FFFF

  /** The C# `int`. */
  type Int32 = x: int | INT32_MIN <= x <= INT32_MAX

  predicate IsDigit(c: char) {
    '0' <= c <= '9'
  }

  predicate AllDigits(s: string) {
    forall i :: 0 <= i < |s| ==> IsDigit(s[i])
  }

  function DigitChar(d: nat): (c: char)
    requires d < 10
    ensures IsDigit(c) && c as int - '0' as int == d
  {
    ('0' as int + d) as char
  }

  /** The number a string of decimal digits denotes (leading zeros allowed). */
  function ValueOf(s: string): nat
    requires AllDigits(s)
  {
    if |s| == 0 then 0 else 10 * ValueOf(s[..|s| - 1]) + (s[|s| - 1] as int - '0' as int)
  }

  /** The shortest decimal digit string denoting `n`. */
  function NatToDigits(n: nat): (s: string)
    ensures |s| > 0 && AllDigits(s)
    ensures ValueOf(s) == n
    ensures s[0] == '0' ==> s == "0"
    decreases n
  {
    if n < 10 then [DigitChar(n)]
    else
      var front := NatToDigits(n / 10);
      assert (front + [DigitChar(n % 10)])[..|front|] == front;
      front + [DigitChar(n % 10)]
  }

  /** `int.ToString()`: a minus sign for negatives, then the digits without leading zeros. */
  function IntToString(n: int): (s: string)
    ensures |s| > 0
    ensures n < 0 <==> s[0] == '-'
    ensures n < 0 ==> AllDigits(s[1..]) && ValueOf(s[1..]) == -n
    ensures n >= 0 ==> AllDigits(s) && ValueOf(s) == n
    ensures n < 0 ==> |s| > 1 && s[1] != '0'
    ensures n >= 0 && s[0] == '0' ==> s == "0"
  {
    if n < 0 then
      var digits := NatToDigits(-n);
      assert digits != "0";
      "-" + digits
    else NatToDigits(n)
  }

  /** The length of the sign `c` starts a number with: 1 for '-' or '+', else 0. */
  function SignLength(c: char): nat {
    if c == '-' || c == '+' then 1 else 0
  }

  /** An optional sign followed by at least one decimal digit. */
  predicate IsSignedDigits(t: string) {
    |t| > 0 && SignLength(t[0]) < |t| && AllDigits(t[SignLength(t[0])..])
  }

  /** The number signed digit text denotes. */
  function SignedValue(t: string): int
    requires IsSignedDigits(t)
  {
    var v := ValueOf(t[SignLength(t[0])..]) as int;
    if t[0] == '-' then -v else v
  }

  /** `s[i..j]` is signed digit text and everything outside it is number white space:
      the shape of text `int.TryParse` reads as a number. */
  predicate IntegerAt(s: string, i: nat, j: nat) {
    && i < j <= |s|
    && (forall k :: 0 <= k < i ==> IsNumberWhite(s[k]))
    && (forall k :: j <= k < |s| ==> IsNumberWhite(s[k]))
    && IsSignedDigits(s[i..j])
  }

  /** `int.TryParse(s, out v)`: white space U+0009..U+000D and U+0020 may surround the
      number, a single leading sign is allowed, at least one digit is needed and the
      value must fit in 32 bits; anything else yields `None`. `int.Parse` accepts the
      same strings and raises where this yields `None`. */
  function ParseInt32(s: string): (r: Option<Int32>)
    ensures r.Some? ==> exists i: nat, j: nat :: IntegerAt(s, i, j) && r.value == SignedValue(s[i..j])
    ensures forall i: nat, j: nat :: IntegerAt(s, i, j) ==>
              r == if INT32_MIN <= SignedValue(s[i..j]) <= INT32_MAX then Some(SignedValue(s[i..j])) else None
    ensures r.Some? ==> exists c :: c in s && IsDigit(c)
    ensures r.Some? && AllDigits(s) ==> r.value == ValueOf(s)
  {
    var t := TrimBy(s, IsNumberWhite);
    assert forall i: nat, j: nat :: IntegerAt(s, i, j) ==> t == s[i..j] by {
      forall i: nat, j: nat | IntegerAt(s, i, j) ensures t == s[i..j] {
        TrimAroundInteger(s, i, j);
      }
    }
    if IsSignedDigits(t) && INT32_MIN <= SignedValue(t) <= INT32_MAX then
      TrimmedInteger(s);
      Some(SignedValue(t))
    else None
  }

  /** Signed digits left by trimming sit in `s` with only number white space around
      them, and one of them is a digit of `s`. */
  lemma TrimmedInteger(s: string)
    requires IsSignedDigits(TrimBy(s, IsNumberWhite))
    ensures exists i: nat, j: nat :: IntegerAt(s, i, j) && TrimBy(s, IsNumberWhite) == s[i..j]
    ensures exists c :: c in s && IsDigit(c)
    ensures AllDigits(s) ==> IntegerAt(s, 0, |s|) && s[0..|s|] == s
  {
    var t := TrimBy(s, IsNumberWhite);
    var i := LeadingCount(s, IsNumberWhite);
    var j := TrailingStart(s, IsNumberWhite);
    assert i < j && t == s[i..j];
    var d := i + SignLength(t[0]);
    assert t[SignLength(t[0])] == s[d];
    assert IntegerAt(s, i, j);
    if AllDigits(s) {
      assert !(0 < i) && !(j < |s|);
    }
  }

  /** Trimming number white space from text of that shape leaves the signed digits. */
  lemma TrimAroundInteger(s: string, i: nat, j: nat)
    requires IntegerAt(s, i, j)
    ensures TrimBy(s, IsNumberWhite) == s[i..j]
  {
    var t := s[i..j];
    assert s[i] == t[0] && s[j - 1] == t[|t| - 1];
    assert t[|t| - 1] == t[SignLength(t[0])..][|t| - 1 - SignLength(t[0])];
    TrimBySlice(s, IsNumberWhite, i, j);
  }

  lemma NoNumberWhiteInDigits(s: string)
    requires AllDigits(s)
    ensures NoneSatisfy(s, IsNumberWhite)
  {
  }

  /** `int.Parse(n.ToString()) == n` for every 32-bit `n`. */
  lemma ParseIntToString(n: Int32)
    ensures ParseInt32(IntToString(n)) == Some(n)
  {
    var s := IntToString(n);
    assert s[0..|s|] == s;
    if n < 0 {
      assert SignLength(s[0]) == 1 && s[1..] == NatToDigits(-(n as int));
    } else {
      assert SignLength(s[0]) == 0 && s[0..] == s;
    }
    assert IntegerAt(s, 0, |s|);
  }
}

=== FILE: dispatch.dfy ===
/** The outbound side of the bridge: what a recording or calibrate command sends, and in
    what order, as a plan of effects; and how that plan runs when some of its calls
    raise. All calls of one command share a single `try`, so the first call that raises
    ends the command, and the exception is caught there. */
module Dispatch {
  import opened Wrappers
  import opened Decimal
  import opened CommandApi
  import opened Broadcast

  const VERSION_LEGACY: string := "v1"
  const COMMAND_API_DEFAULT_PORT: Int32 := 14053
  const API_KEY: string := "1234"

  /** The port the capture software listens on, and the one two below it. */
  const PORT_COMMAND_XML: Int32 := 1512
  const PORT_COMMAND_XML2: Int32 := 1510

  const BROADCAST_ADDRESS: string := "255.255.255.255"

  /** One call to the outside world. */
  datatype Effect =
    | UdpSend(host: string, port: int, payload: string)
    | HttpPost(apiPort: Int32, uri: string, body: JsonObject)

  /** The settings and identity every send reads: the broadcast port, the command API's
      port and key (a key read as null is kept as `None`), and this process's id. */
  datatype Config = Config(portCommandXml: Int32, apiPort: Int32, apiKey: Option<string>, processId: Int32)

  /** 32-bit `a - b` with wrap-around. */
  function Sub32(a: Int32, b: Int32): (r: Int32)
    ensures INT32_MIN <= a - b <= INT32_MAX ==> r == a - b
    ensures (r - (a - b)) % 0x1_0000_0000 == 0
  {
    var d := a - b;
    if d < INT32_MIN then d + 0x1_0000_0000
    else if d > INT32_MAX then d - 0x1_0000_0000
    else d
  }

  /** `GetApiBaseRoute`: the legacy version and the key; a null key interpolates as
      nothing. */
  function ApiBaseRoute(key: Option<string>): (r: string)
    ensures |r| == |VERSION_LEGACY| + 1 + |key.GetOr("")|
    ensures r[..|VERSION_LEGACY| + 1] == VERSION_LEGACY + "/" && r[|VERSION_LEGACY| + 1..] == key.GetOr("")
  {
    VERSION_LEGACY + "/" + key.GetOr("")
  }

  function RecordingCommandName(isStart: bool): string {
    if isStart then "start" else "stop"
  }

  function RecordingUri(key: Option<string>, isStart: bool): string {
    ApiBaseRoute(key) + "/recording/" + RecordingCommandName(isStart)
  }

  function CalibrateUri(key: Option<string>): string {
    ApiBaseRoute(key) + "/calibrate"
  }

  // ---------------------------------------------------------------- plans

  /** The broadcast packet of a recording command: empty notes, description and
      database path, packet id 0, and this process's id. */
  function RecordingPacket(cfg: Config, isStart: bool, name: string, timecode: string): string {
    GenerateXmlCommand(CommandName(isStart), name, timecode, "", "", "", 0, cfg.processId)
  }

  /** `SendRecordingCommand`: with a UDP client, the packet to the broadcast port and
      then to the port two below it; then the POST of the recording input to the start
      or stop route. */
  function RecordingPlan(cfg: Config, isStart: bool, name: string, timecode: string, frameRate: Float32,
                         withUdp: bool): (plan: seq<Effect>)
    ensures |plan| == if withUdp then 3 else 1
    ensures withUdp ==>
              && plan[0] == UdpSend(BROADCAST_ADDRESS, cfg.portCommandXml, RecordingPacket(cfg, isStart, name, timecode))
              && plan[1] == UdpSend(BROADCAST_ADDRESS, Sub32(cfg.portCommandXml, 2), RecordingPacket(cfg, isStart, name, timecode))
    ensures plan[|plan| - 1].HttpPost? && plan[|plan| - 1].apiPort == cfg.apiPort
    ensures plan[|plan| - 1].uri == ApiBaseRoute(cfg.apiKey) + "/recording/" + (if isStart then "start" else "stop")
    ensures RecordingFromFields(plan[|plan| - 1].body) == Some(RecordingInputFor(name, timecode, frameRate))
  {
    var packet := RecordingPacket(cfg, isStart, name, timecode);
    var post := HttpPost(cfg.apiPort, RecordingUri(cfg.apiKey, isStart), RecordingFields(RecordingInputFor(name, timecode, frameRate)));
    if withUdp then
      [UdpSend(BROADCAST_ADDRESS, cfg.portCommandXml, packet),
       UdpSend(BROADCAST_ADDRESS, Sub32(cfg.portCommandXml, 2), packet),
       post]
    else [post]
  }

  /** `SendCalibrateCommand`: one POST of the calibrate input to the calibrate route. */
  function CalibratePlan(cfg: Config): (plan: seq<Effect>)
    ensures |plan| == 1 && plan[0].HttpPost?
    ensures plan[0].apiPort == cfg.apiPort && plan[0].uri == ApiBaseRoute(cfg.apiKey) + "/calibrate"
    ensures CalibrationFromFields(plan[0].body) == Some(CALIBRATE_COMMAND_INPUT)
  {
    [HttpPost(cfg.apiPort, CalibrateUri(cfg.apiKey), CalibrationFields(CALIBRATE_COMMAND_INPUT))]
  }

  // ---------------------------------------------------------------- running a plan

  /** A port an endpoint or a URI may name: 0..65535. */
  predicate ValidPort(p: int) {
    0 <= p <= 65535
  }

  /** A port a datagram can be sent to: 1..65535. `UdpClient.Send` to port 0 on the bound
      but unconnected client always raises, as does one outside 0..65535. */
  predicate SendablePort(p: int) {
    1 <= p <= 65535
  }

  /** Whether the `k`-th call of a plan raises: the transport failed it (`k in failing`),
      or it is a UDP send to a port that is not sendable, which always raises. */
  predicate Raises(e: Effect, k: nat, failing: set<nat>) {
    k in failing || (e.UdpSend? && !SendablePort(e.port))
  }

  /** The index of the first call at or after `from` that raises, or the plan's length. */
  function FirstRaise(plan: seq<Effect>, failing: set<nat>, from: nat): (k: nat)
    requires from <= |plan|
    ensures from <= k <= |plan|
    ensures forall j :: from <= j < k ==> !Raises(plan[j], j, failing)
    ensures k < |plan| ==> Raises(plan[k], k, failing)
    decreases |plan| - from
  {
    if from == |plan| then from
    else if Raises(plan[from], from, failing) then from
    else FirstRaise(plan, failing, from + 1)
  }

  /** The calls that completed, and the call whose exception was caught, if any. */
  datatype Outcome = Outcome(performed: seq<Effect>, caught: Option<Effect>)

  const NOTHING_DONE: Outcome := Outcome([], None)

  /** Runs a plan inside one `try`: calls complete in order until one raises, and that
      exception is caught, so nothing propagates to the caller. */
  function Execute(plan: seq<Effect>, failing: set<nat>): (o: Outcome)
    ensures o.performed <= plan
    ensures forall j :: 0 <= j < |o.performed| ==> !Raises(plan[j], j, failing)
    ensures o.caught.None? <==> o.performed == plan
    ensures o.caught.None? <==> forall j :: 0 <= j < |plan| ==> !Raises(plan[j], j, failing)
    ensures o.caught.Some? ==> |o.performed| < |plan| && o.caught.value == plan[|o.performed|]
                               && Raises(plan[|o.performed|], |o.performed|, failing)
  {
    var k := FirstRaise(plan, failing, 0);
    if k < |plan| then Outcome(plan[..k], Some(plan[k])) else Outcome(plan, None)
  }
}

=== FILE: dispatch_properties.dfy ===
/** What the send operations promise: where each call goes, that a failing broadcast
    call keeps the POST from being made, that a fault-free run makes every call in
    order, and that the broadcast packet reads back at any other bridge. */
module DispatchProperties {
  import opened Wrappers
  import opened Decimal
  import opened FlatXml
  import opened CommandApi
  import opened Broadcast
  import opened BroadcastProperties
  import opened Dispatch

  /** With the default broadcast port, a recording command broadcasts on the capture
      software's two ports, 1512 and then the declared 1510, and without transport
      faults every call is made. */
  lemma DefaultBroadcastPorts(cfg: Config, isStart: bool, name: string, timecode: string, frameRate: Float32)
    requires cfg.portCommandXml == PORT_COMMAND_XML
    ensures var plan := RecordingPlan(cfg, isStart, name, timecode, frameRate, true);
      && plan[0].UdpSend? && plan[0].port == PORT_COMMAND_XML
      && plan[1].UdpSend? && plan[1].port == PORT_COMMAND_XML2
      && Execute(plan, {}) == Outcome(plan, None)
  {
    FaultFreeRecording(cfg, isStart, name, timecode, frameRate, true);
  }

  /** A recording route names its command, so the start and stop routes and the
      calibrate route of one key are three different routes, and a recording route
      determines the command and the key text it was built from. */
  lemma RecordingUriInjective(k1: Option<string>, s1: bool, k2: Option<string>, s2: bool)
    requires RecordingUri(k1, s1) == RecordingUri(k2, s2)
    ensures s1 == s2 && k1.GetOr("") == k2.GetOr("")
  {
    var u := RecordingUri(k1, s1);
    assert u[|u| - 1] == if s1 then 't' else 'p';
    assert u[|u| - 1] == if s2 then 't' else 'p';
    var tail := "/recording/" + RecordingCommandName(s1);
    assert ApiBaseRoute(k1) == u[..|u| - |tail|];
    assert ApiBaseRoute(k2) == u[..|u| - |tail|];
    assert k1.GetOr("") == ApiBaseRoute(k1)[|VERSION_LEGACY| + 1..];
  }

  lemma RoutesDistinct(key: Option<string>)
    ensures RecordingUri(key, true) != RecordingUri(key, false)
    ensures RecordingUri(key, true) != CalibrateUri(key) && RecordingUri(key, false) != CalibrateUri(key)
  {
    var start, stop, cal := RecordingUri(key, true), RecordingUri(key, false), CalibrateUri(key);
    assert start[|start| - 1] == 't' && stop[|stop| - 1] == 'p' && cal[|cal| - 1] == 'e';
  }

  /** Both legs share one `try`: when either broadcast call raises, the exception is
      caught at a broadcast call and the POST is never made. */
  lemma UdpFaultSkipsPost(cfg: Config, isStart: bool, name: string, timecode: string, frameRate: Float32, failing: set<nat>)
    requires 0 in failing || 1 in failing || !SendablePort(cfg.portCommandXml) || !SendablePort(Sub32(cfg.portCommandXml, 2))
    ensures var o := Execute(RecordingPlan(cfg, isStart, name, timecode, frameRate, true), failing);
      && o.caught.Some? && o.caught.value.UdpSend?
      && forall j :: 0 <= j < |o.performed| ==> o.performed[j].UdpSend?
  {
    var plan := RecordingPlan(cfg, isStart, name, timecode, frameRate, true);
    var o := Execute(plan, failing);
    assert |o.performed| <= 1;
    assert o.performed == plan[..|o.performed|];
  }

  /** With no transport fault and sendable ports, every call is made, in the order:
      port P, port P - 2, then the POST. */
  lemma FaultFreeRecording(cfg: Config, isStart: bool, name: string, timecode: string, frameRate: Float32, withUdp: bool)
    requires withUdp ==> SendablePort(cfg.portCommandXml) && SendablePort(Sub32(cfg.portCommandXml, 2))
    ensures var plan := RecordingPlan(cfg, isStart, name, timecode, frameRate, withUdp);
      Execute(plan, {}) == Outcome(plan, None)
  {
    var plan := RecordingPlan(cfg, isStart, name, timecode, frameRate, withUdp);
    assert forall j :: 0 <= j < |plan| ==> !Raises(plan[j], j, {});
  }

  /** Start-up accepts a broadcast port of 2, but then every broadcasting recording
      command sends its second datagram to port 0: that send raises, and the POST is
      never made even without any transport fault. */
  lemma PortTwoSkipsPost(cfg: Config, isStart: bool, name: string, timecode: string, frameRate: Float32)
    requires cfg.portCommandXml == 2
    ensures var plan := RecordingPlan(cfg, isStart, name, timecode, frameRate, true);
      Execute(plan, {}) == Outcome([plan[0]], Some(plan[1]))
  {
    var plan := RecordingPlan(cfg, isStart, name, timecode, frameRate, true);
    assert !Raises(plan[0], 0, {}) && Raises(plan[1], 1, {});
    assert plan[..1] == [plan[0]];
  }

  /** Any other bridge's listener relays a recording command's broadcast packet as the
      same command, name and time code, and this bridge's own listener recognises it as
      an echo. */
  lemma PacketReadsBack(cfg: Config, isStart: bool, name: string, timecode: string, localPid: Int32)
    requires IsSafeValue(name) && IsSafeValue(timecode)
    ensures DecodeDatagram(RecordingPacket(cfg, isStart, name, timecode), localPid)
         == if localPid == cfg.processId then SelfEcho else Relay(isStart, name, timecode)
  {
    assert IsSafeValue("");
    DecodeGeneratedPacket(isStart, name, timecode, "", "", "", 0, cfg.processId, localPid);
  }
}

=== FILE: flat_xml.dfy ===
/** The flat XML shape of the broadcast commands: a root element whose children are
    empty elements carrying at most a `VALUE` attribute, written with no white space
    between tags. The parser reads exactly that shape. Attribute values come back raw:
    the document loader keeps tabs and line breaks as they are, and refuses any
    character outside XML's `Char` production and the raw '<' and '&'. Names are plain
    ASCII names without ':' (the loader is namespace aware, so a prefix it cannot
    resolve is an error). */
module FlatXml {
  import opened Wrappers
  import opened Strings

  /** `<tag VALUE="v"/>`, or `<tag/>` when there is no `VALUE` attribute. */
  datatype Child = Child(tag: string, value: Option<string>)

  /** `<tag>` children `</tag>`. */
  datatype Element = Element(tag: string, children: seq<Child>)

  // ---------------------------------------------------------------- names and values

  predicate IsNameStart(c: char) {
    ('A' <= c <= 'Z') || ('a' <= c <= 'z') || c == '_'
  }

  predicate IsNameChar(c: char) {
    IsNameStart(c) || ('0' <= c <= '9') || c == '-' || c == '.'
  }

  /** An XML name without a namespace prefix (ASCII letters, digits and `_ - .`, not
      starting with a digit, '-' or '.'). */
  predicate IsName(s: string) {
    |s| > 0 && IsNameStart(s[0]) && forall i :: 0 <= i < |s| ==> IsNameChar(s[i])
  }

  /** Characters an attribute value may not hold raw: the quote that ends it, '<', and
      '&' (which would start a reference). */
  predicate IsRawForbidden(c: char) {
    c == '"' || c == '<' || c == '&'
  }

  /** The `Char` production of section 2.2 of XML 1.0: tab, line feed, carriage return
      and every scalar value from U+0020 on except U+FFFE and U+FFFF (a `char` is never
      a surrogate). */
  predicate IsXmlChar(c: char) {
    c == '\t' || c == '\n' || c == '\r' || ('\U{20}' <= c <= '\U{D7FF}')
    || ('\U{E000}' <= c <= '\U{FFFD}') || '\U{10000}' <= c
  }

  /** A character an attribute value may hold as it is. */
  predicate IsValueChar(c: char) {
    IsXmlChar(c) && !IsRawForbidden(c)
  }

  /** A value that is written, loaded and read back unchanged. */
  predicate IsSafeValue(v: string) {
    forall i :: 0 <= i < |v| ==> IsValueChar(v[i])
  }

  /** The element can be written in the flat shape and read back as itself. */
  predicate WellFormed(e: Element) {
    && IsName(e.tag)
    && forall i :: 0 <= i < |e.children| ==>
         IsName(e.children[i].tag) && (e.children[i].value.Some? ==> IsSafeValue(e.children[i].value.value))
  }

  // ---------------------------------------------------------------- rendering

  /** What follows a child's tag when written. */
  function ChildEnd(value: Option<string>): string {
    match value
    case Some(v) => " VALUE=\"" + v + "\"/>"
    case None => "/>"
  }

  function RenderChild(c: Child): string {
    "<" + c.tag + ChildEnd(c.value)
  }

  function RenderChildren(cs: seq<Child>): string {
    if |cs| == 0 then "" else RenderChild(cs[0]) + RenderChildren(cs[1..])
  }

  function Render(e: Element): string {
    "<" + e.tag + ">" + RenderChildren(e.children) + "</" + e.tag + ">"
  }

  // ---------------------------------------------------------------- parsing

  predicate HasPrefix(s: string, p: string) {
    |p| <= |s| && s[..|p|] == p
  }

  /** The length of the longest prefix of name characters. */
  function NameLength(s: string): (n: nat)
    ensures n <= |s|
    ensures forall i :: 0 <= i < n ==> IsNameChar(s[i])
    ensures n < |s| ==> !IsNameChar(s[n])
  {
    if |s| == 0 || !IsNameChar(s[0]) then 0 else 1 + NameLength(s[1..])
  }

  /** Reads a quoted attribute value and the `"/>` that closes the child, returning the
      value exactly as written and what follows. */
  function ParseQuotedValue(body: string): (r: Option<(string, string)>)
    ensures r.Some? ==> |r.value.1| < |body| && IsSafeValue(r.value.0)
  {
    var m := IndexOf(body, '"');
    var raw := body[..m];
    if HasPrefix(body[m..], "\"/>") && IsSafeValue(raw) then Some((raw, body[m + 3..]))
    else None
  }

  /** Reads what follows a child's tag: `/>`, or ` VALUE="v"/>`. */
  function ParseChildEnd(after: string): (r: Option<(Option<string>, string)>)
    ensures r.Some? ==> |r.value.1| < |after|
    ensures r.Some? && r.value.0.Some? ==> IsSafeValue(r.value.0.value)
  {
    if HasPrefix(after, "/>") then Some((None, after[2..]))
    else if HasPrefix(after, " VALUE=\"") then
      match ParseQuotedValue(after[8..])
      case Some((v, rest)) => Some((Some(v), rest))
      case None => None
    else None
  }

  /** Reads one child element from the front of `s`, returning it and what follows. */
  function ParseChild(s: string): (r: Option<(Child, string)>)
    ensures r.Some? ==> |r.value.1| < |s|
    ensures r.Some? ==> IsName(r.value.0.tag)
    ensures r.Some? && r.value.0.value.Some? ==> IsSafeValue(r.value.0.value.value)
  {
    if |s| == 0 || s[0] != '<' then None
    else
      var n := NameLength(s[1..]);
      var tag := s[1..1 + n];
      if !IsName(tag) then None
      else
        match ParseChildEnd(s[1 + n..])
        case Some((v, rest)) => Some((Child(tag, v), rest))
        case None => None
  }

  /** Reads child elements up to the first end tag. */
  function ParseChildren(s: string): (r: Option<(seq<Child>, string)>)
    ensures r.Some? ==> HasPrefix(r.value.1, "</")
    ensures r.Some? ==> forall i :: 0 <= i < |r.value.0| ==>
      IsName(r.value.0[i].tag) && (r.value.0[i].value.Some? ==> IsSafeValue(r.value.0[i].value.value))
    decreases |s|
  {
    if HasPrefix(s, "</") then Some(([], s))
    else
      match ParseChild(s)
      case None => None
      case Some((c, rest)) =>
        match ParseChildren(rest)
        case None => None
        case Some((cs, tail)) => Some(([c] + cs, tail))
  }

  /** Reads a whole document of the flat shape; `None` for any other text. */
  function Parse(s: string): (r: Option<Element>)
    ensures r.Some? ==> WellFormed(r.value)
  {
    if |s| == 0 || s[0] != '<' then None
    else
      var n := NameLength(s[1..]);
      var tag := s[1..1 + n];
      if !IsName(tag) || 1 + n >= |s| || s[1 + n] != '>' then None
      else
        match ParseChildren(s[2 + n..])
        case None => None
        case Some((cs, rest)) => if rest == "</" + tag + ">" then Some(Element(tag, cs)) else None
  }

  // ---------------------------------------------------------------- round trip

  lemma NameLengthOfName(name: string, rest: string)
    requires IsName(name) && |rest| > 0 && !IsNameChar(rest[0])
    ensures NameLength(name + rest) == |name|
  {
    var s := name + rest;
    assert forall i :: 0 <= i < |name| ==> s[i] == name[i];
    assert s[|name|] == rest[0];
  }

  lemma QuoteIndexOfValue(v: string, rest: string)
    requires forall i :: 0 <= i < |v| ==> v[i] != '"'
    ensures IndexOf(v + "\"" + rest, '"') == |v|
  {
    var s := v + "\"" + rest;
    assert forall i :: 0 <= i < |v| ==> s[i] == v[i];
    assert s[|v|] == '"';
  }

  /** The tag at the front of a written child is read as a whole. */
  lemma ChildTag(tag: string, tail: string)
    requires IsName(tag) && |tail| > 0 && !IsNameChar(tail[0])
    ensures var s := "<" + tag + tail;
      && s[0] == '<'
      && NameLength(s[1..]) == |tag|
      && s[1..1 + |tag|] == tag
      && s[1 + |tag|..] == tail
  {
    var s := "<" + tag + tail;
    assert s[1..] == tag + tail;
    NameLengthOfName(tag, tail);
  }

  /** A quoted safe value reads back as itself. */
  lemma ParseWrittenValue(v: string, rest: string)
    requires IsSafeValue(v)
    ensures ParseQuotedValue(v + "\"/>" + rest) == Some((v, rest))
  {
    var body := v + "\"/>" + rest;
    assert body == v + "\"" + ("/>" + rest);
    QuoteIndexOfValue(v, "/>" + rest);
    assert body[..|v|] == v;
    assert body[|v|..] == "\"/>" + rest;
    assert body[|v| + 3..] == rest;
  }

  /** A written value holding no quote but some character that may not stand in a value
      is refused. */
  lemma ParseUnsafeValue(v: string, rest: string)
    requires QuoteFree(v)
    requires !IsSafeValue(v)
    ensures ParseChildEnd(" VALUE=\"" + v + "\"/>" + rest) == None
  {
    var after := " VALUE=\"" + v + "\"/>" + rest;
    var body := v + "\"/>" + rest;
    assert after == " VALUE=\"" + body;
    assert after[0] == ' ';
    assert after[8..] == body;
    assert body == v + "\"" + ("/>" + rest);
    QuoteIndexOfValue(v, "/>" + rest);
    assert body[..|v|] == v;
  }

  /** What follows a written child's tag reads back as its value. */
  lemma ParseWrittenChildEnd(value: Option<string>, rest: string)
    requires value.Some? ==> IsSafeValue(value.value)
    ensures ParseChildEnd(ChildEnd(value) + rest) == Some((value, rest))
  {
    var after := ChildEnd(value) + rest;
    match value {
      case None =>
        assert after == "/>" + rest;
        assert after[2..] == rest;
      case Some(v) =>
        assert after == " VALUE=\"" + (v + "\"/>" + rest);
        assert after[0] == ' ';
        assert after[8..] == v + "\"/>" + rest;
        ParseWrittenValue(v, rest);
    }
  }

  /** A written child reads back as itself, leaving what follows it. */
  lemma ParseRenderedChild(c: Child, rest: string)
    requires IsName(c.tag) && (c.value.Some? ==> IsSafeValue(c.value.value))
    ensures ParseChild(RenderChild(c) + rest) == Some((c, rest))
  {
    var tail := ChildEnd(c.value) + rest;
    assert RenderChild(c) + rest == "<" + c.tag + tail;
    assert tail[0] == '/' || tail[0] == ' ';
    ChildTag(c.tag, tail);
    ParseWrittenChildEnd(c.value, rest);
  }

  /** Written children read back as themselves, up to the end tag that follows them. */
  lemma {:induction false} ParseRenderedChildren(cs: seq<Child>, tail: string)
    requires HasPrefix(tail, "</")
    requires forall i :: 0 <= i < |cs| ==> IsName(cs[i].tag) && (cs[i].value.Some? ==> IsSafeValue(cs[i].value.value))
    ensures ParseChildren(RenderChildren(cs) + tail) == Some((cs, tail))
  {
    if |cs| > 0 {
      var s := RenderChildren(cs) + tail;
      var rest := RenderChildren(cs[1..]) + tail;
      assert s == RenderChild(cs[0]) + rest by {
        AppendAssoc(RenderChild(cs[0]), RenderChildren(cs[1..]), tail);
      }
      assert !HasPrefix(s, "</") by {
        assert s[0] == '<' && s[1] == cs[0].tag[0];
      }
      ParseRenderedChild(cs[0], rest);
      ParseRenderedChildren(cs[1..], tail);
      assert [cs[0]] + cs[1..] == cs;
    } else {
      assert RenderChildren(cs) + tail == tail;
    }
  }

  predicate QuoteFree(v: string) {
    forall k :: 0 <= k < |v| ==> v[k] != '"'
  }

  /** A child whose tag is a name and whose value, if any, holds no quote: it is written
      as one child, whatever else its value holds. */
  predicate QuoteFreeChild(c: Child) {
    IsName(c.tag) && (c.value.Some? ==> QuoteFree(c.value.value))
  }

  predicate HasUnsafeValue(c: Child) {
    c.value.Some? && !IsSafeValue(c.value.value)
  }

  /** A written child whose value holds (without a quote) a character that may not stand
      in a value is refused. */
  lemma ParseChildUnsafe(c: Child, rest: string)
    requires QuoteFreeChild(c) && HasUnsafeValue(c)
    ensures ParseChild(RenderChild(c) + rest) == None
  {
    var v := c.value.value;
    var after := " VALUE=\"" + v + "\"/>" + rest;
    assert RenderChild(c) + rest == "<" + c.tag + after;
    ChildTag(c.tag, after);
    ParseUnsafeValue(v, rest);
  }

  /** A run of written children, one of whose values holds (without a quote) a character
      that may not stand in a value, is refused. */
  lemma {:induction false} ParseChildrenUnsafe(cs: seq<Child>, tail: string)
    requires forall i :: 0 <= i < |cs| ==> QuoteFreeChild(cs[i])
    requires exists i :: 0 <= i < |cs| && HasUnsafeValue(cs[i])
    ensures ParseChildren(RenderChildren(cs) + tail) == None
  {
    var s := RenderChildren(cs) + tail;
    var rest := RenderChildren(cs[1..]) + tail;
    assert s == RenderChild(cs[0]) + rest by {
      AppendAssoc(RenderChild(cs[0]), RenderChildren(cs[1..]), tail);
    }
    assert !HasPrefix(s, "</") by {
      assert s[0] == '<' && s[1] == cs[0].tag[0];
    }
    if HasUnsafeValue(cs[0]) {
      ParseChildUnsafe(cs[0], rest);
    } else {
      ParseRenderedChild(cs[0], rest);
      var i :| 0 <= i < |cs| && HasUnsafeValue(cs[i]);
      assert cs[1..][i - 1] == cs[i];
      ParseChildrenUnsafe(cs[1..], tail);
    }
  }

  /** After a start tag, the document is read as the children and the end tag. */
  lemma ParseAfterStartTag(tag: string, inner: string)
    requires IsName(tag)
    ensures Parse("<" + tag + ">" + inner)
         == match ParseChildren(inner)
            case None => None
            case Some((cs, rest)) => if rest == "</" + tag + ">" then Some(Element(tag, cs)) else None
  {
    var after := ">" + inner;
    var s := "<" + tag + after;
    assert "<" + tag + ">" + inner == s;
    ChildTag(tag, after);
    var n := |tag|;
    assert s[1 + n] == '>';
    assert s[2 + n..] == inner by {
      assert s[1 + n..] == after;
    }
  }

  /** A well-formed element, written and read back, is itself. */
  lemma ParseRender(e: Element)
    requires WellFormed(e)
    ensures Parse(Render(e)) == Some(e)
  {
    var endTag := "</" + e.tag + ">";
    var inner := RenderChildren(e.children) + endTag;
    assert Render(e) == "<" + e.tag + ">" + inner;
    ParseAfterStartTag(e.tag, inner);
    assert HasPrefix(endTag, "</");
    ParseRenderedChildren(e.children, endTag);
  }

  /** An element written with a value that holds a control character outside XML's
      `Char`, a raw '<' or a raw '&' (and no quote) does not load. */
  lemma ParseRenderUnsafe(e: Element)
    requires IsName(e.tag)
    requires forall i :: 0 <= i < |e.children| ==> QuoteFreeChild(e.children[i])
    requires exists i :: 0 <= i < |e.children| && HasUnsafeValue(e.children[i])
    ensures Parse(Render(e)) == None
  {
    var endTag := "</" + e.tag + ">";
    var inner := RenderChildren(e.children) + endTag;
    assert Render(e) == "<" + e.tag + ">" + inner;
    ParseAfterStartTag(e.tag, inner);
    ParseChildrenUnsafe(e.children, endTag);
  }
}

=== FILE: ini.dfy ===
/** The settings store: a table keyed by (section, key) whose values may be null,
    loaded from the lines of an INI file and written back as text. */
module Ini {
  import opened Wrappers
  import opened Strings
  import opened Decimal
  import opened IniLines

  const BOOL_VALUE_YES: string := "Yes"
  const BOOL_VALUE_NO: string := "No"
  /** The section of key lines that come before any header. */
  const DEFAULT_SECTION: string := "ROOT"

  /** A (section, key) pair. */
  type Pair = (string, string)

  /** The hashtable of settings; `None` is a null value. */
  type Table = map<Pair, Option<string>>

  datatype LoadError = DuplicateKey(section: string, key: string)

  datatype SettingError = NullValue | NotAnInteger(text: string)

  // ---------------------------------------------------------------- loading

  /** A trimmed line that starts with '[' and ends with ']' names a section (a single
      character cannot do both, so such a line has at least two). */
  predicate IsHeader(line: string) {
    |line| >= 2 && line[0] == '[' && line[|line| - 1] == ']'
  }

  /** How a setting is written: `key=value`, or the bare key when the value is null. */
  function EntryLine(key: string, value: Option<string>): string {
    match value
    case Some(v) => key + "=" + v
    case None => key
  }

  /** Splits a key line at its first '=' only: the key never holds '=', and writing the
      pair back gives the line. */
  function SplitKeyValue(line: string): (kv: (string, Option<string>))
    ensures '=' !in kv.0
    ensures EntryLine(kv.0, kv.1) == line
  {
    var k := IndexOf(line, '=');
    if k < |line| then
      assert line == line[..k] + "=" + line[k + 1..];
      (line[..k], Some(line[k + 1..]))
    else (line, None)
  }

  /** What a line of the file is once trimmed: blank, a section header, or a key line
      split at its first '='. */
  datatype LineKind = Blank | Header(name: string) | KeyLine(key: string, value: Option<string>)

  function Classify(raw: string): LineKind {
    var line := Trim(raw);
    if |line| == 0 then Blank
    else if IsHeader(line) then Header(line[1..|line| - 1])
    else
      var kv := SplitKeyValue(line);
      KeyLine(kv.0, kv.1)
  }

  /** The body of the constructor's read loop: `current` is the section in force
      (`None` before any header) and `table` what was read so far. A pair seen twice
      raises. On success nothing read before is replaced. */
  function LoadLines(lines: seq<string>, current: Option<string>, table: Table): (r: Result<Table, LoadError>)
    ensures r.Success? ==> forall p :: p in table ==> p in r.value && r.value[p] == table[p]
    decreases |lines|
  {
    if |lines| == 0 then Success(table)
    else
      match Classify(lines[0])
      case Blank => LoadLines(lines[1..], current, table)
      case Header(name) => LoadLines(lines[1..], Some(name), table)
      case KeyLine(key, value) =>
        var section := current.GetOr(DEFAULT_SECTION);
        if (section, key) in table then Failure(DuplicateKey(section, key))
        else LoadLines(lines[1..], Some(section), table[(section, key) := value])
  }

  /** Every setting `LoadLines` adds was read from a key line with that key and value,
      under the section in force at the start or under a header among the lines. */
  lemma {:induction false} LoadedFromLines(lines: seq<string>, current: Option<string>, table: Table)
    ensures var r := LoadLines(lines, current, table);
      r.Success? ==> forall p :: p in r.value && p !in table ==>
        && (exists i :: 0 <= i < |lines| && Classify(lines[i]) == KeyLine(p.1, r.value[p]))
        && (p.0 == current.GetOr(DEFAULT_SECTION) || exists i :: 0 <= i < |lines| && Classify(lines[i]) == Header(p.0))
    decreases |lines|
  {
    var r := LoadLines(lines, current, table);
    if |lines| > 0 && r.Success? {
      var rest := lines[1..];
      assert forall i :: 0 <= i < |rest| ==> rest[i] == lines[i + 1];
      match Classify(lines[0])
      case Blank =>
        LoadedFromLines(rest, current, table);
      case Header(name) =>
        LoadedFromLines(rest, Some(name), table);
      case KeyLine(key, value) =>
        var section := current.GetOr(DEFAULT_SECTION);
        var next := table[(section, key) := value];
        LoadedFromLines(rest, Some(section), next);
        assert r == LoadLines(rest, Some(section), next);
        assert r.value[(section, key)] == value;
    }
  }

  /** The table the constructor builds from the lines of an existing file: each of its
      settings comes from a key line of the file holding that key and value, and its
      section is "ROOT" or named by a header of the file. */
  function Load(lines: seq<string>): (r: Result<Table, LoadError>)
    ensures r.Success? ==> forall p :: p in r.value ==>
      && (exists i :: 0 <= i < |lines| && Classify(lines[i]) == KeyLine(p.1, r.value[p]))
      && (p.0 == DEFAULT_SECTION || exists i :: 0 <= i < |lines| && Classify(lines[i]) == Header(p.0))
  {
    LoadedFromLines(lines, None, map[]);
    LoadLines(lines, None, map[])
  }

  // ---------------------------------------------------------------- access

  /** `GetSetting(section, key, string)`: the stored value, which may be null, or the default. */
  function GetString(t: Table, section: string, key: string, default: Option<string>): (r: Option<string>)
    ensures (section, key) in t ==> r == t[(section, key)]
    ensures (section, key) !in t ==> r == default
  {
    if (section, key) in t then t[(section, key)] else default
  }

  /** `GetSetting(section, key, bool)`: true exactly when the stored value is "Yes". */
  function GetBool(t: Table, section: string, key: string, default: bool): (r: bool)
    ensures (section, key) in t ==> (r <==> t[(section, key)] == Some(BOOL_VALUE_YES))
    ensures (section, key) !in t ==> r == default
  {
    if (section, key) in t then t[(section, key)] == Some(BOOL_VALUE_YES) else default
  }

  /** `GetSetting(section, key, int)`: `int.Parse` of the stored value, which raises on
      a null value and on text that is not a 32-bit integer. */
  function GetInt(t: Table, section: string, key: string, default: Int32): (r: Result<Int32, SettingError>)
    ensures (section, key) !in t ==> r == Success(default)
    ensures r == Failure(NullValue) <==> (section, key) in t && t[(section, key)].None?
    ensures (section, key) in t && r.Success? ==>
              && t[(section, key)].Some?
              && exists i: nat, j: nat :: IntegerAt(t[(section, key)].value, i, j)
                                         && r.value == SignedValue(t[(section, key)].value[i..j])
    ensures (section, key) in t && t[(section, key)].Some? && r.Failure? ==>
              forall i: nat, j: nat :: IntegerAt(t[(section, key)].value, i, j) ==>
                !(INT32_MIN <= SignedValue(t[(section, key)].value[i..j]) <= INT32_MAX)
  {
    if (section, key) !in t then Success(default)
    else
      match t[(section, key)]
      case None => Failure(NullValue)
      case Some(text) =>
        match ParseInt32(text)
        case Some(n) => Success(n)
        case None => Failure(NotAnInteger(text))
  }

  /** `AddSetting(section, key, string)`: adds the pair or replaces its value. */
  function AddString(t: Table, section: string, key: string, value: Option<string>): (r: Table)
    ensures r.Keys == t.Keys + {(section, key)}
    ensures r[(section, key)] == value
    ensures forall p :: p in t && p != (section, key) ==> r[p] == t[p]
  {
    t[(section, key) := value]
  }

  /** `AddSetting(section, key, bool)`: stores "Yes" or "No". */
  function AddBool(t: Table, section: string, key: string, value: bool): Table {
    AddString(t, section, key, Some(if value then BOOL_VALUE_YES else BOOL_VALUE_NO))
  }

  /** `AddSetting(section, key, int)`: stores the decimal text of the value. */
  function AddInt(t: Table, section: string, key: string, value: Int32): Table {
    AddString(t, section, key, Some(IntToString(value)))
  }

  /** `AddSetting(section, key)`: stores the key with a null value. */
  function AddKey(t: Table, section: string, key: string): Table {
    AddString(t, section, key, None)
  }

  /** `DeleteSetting`: removes the pair if present. */
  function Delete(t: Table, section: string, key: string): (r: Table)
    ensures r.Keys == t.Keys - {(section, key)}
    ensures forall p :: p in r ==> r[p] == t[p]
    ensures (section, key) !in t ==> r == t
  {
    t - {(section, key)}
  }

  /** `isEmpty`. */
  function IsEmpty(t: Table): (b: bool)
    ensures b <==> t == map[]
  {
    |t| == 0
  }

  // ---------------------------------------------------------------- enumeration

  predicate NoDuplicates<T(==)>(s: seq<T>) {
    forall i, j :: 0 <= i < j < |s| ==> s[i] != s[j]
  }

  /** `order` is an enumeration of the hashtable's keys: each key exactly once, in an
      order the model leaves open. */
  ghost predicate Enumerates(t: Table, order: seq<Pair>) {
    && NoDuplicates(order)
    && (forall p :: p in t <==> p in order)
  }

  /** The keys of `section`, in enumeration order. */
  function KeysIn(order: seq<Pair>, section: string): (keys: seq<string>)
    ensures forall k :: k in keys <==> (section, k) in order
    ensures NoDuplicates(order) ==> NoDuplicates(keys)
  {
    if |order| == 0 then []
    else
      var rest := KeysIn(order[1..], section);
      if order[0].0 == section then
        assert order[0] !in order[1..] ==> (section, order[0].1) !in order[1..];
        [order[0].1] + rest
      else rest
  }

  /** `EnumSection(section)`: every key of that section, each once. */
  function EnumSection(t: Table, order: seq<Pair>, section: string): (keys: seq<string>)
    requires Enumerates(t, order)
    ensures forall k :: k in keys <==> (section, k) in t
    ensures NoDuplicates(keys)
  {
    KeysIn(order, section)
  }

  // ---------------------------------------------------------------- saving

  /** The distinct sections of `order` appended to `seen`, in order of first appearance. */
  function SectionsFrom(seen: seq<string>, order: seq<Pair>): (sections: seq<string>)
    requires NoDuplicates(seen)
    ensures NoDuplicates(sections)
    ensures forall s :: s in sections <==> s in seen || exists p :: p in order && p.0 == s
    decreases |order|
  {
    if |order| == 0 then seen
    else
      var s := order[0].0;
      var next := if s in seen then seen else seen + [s];
      var r := SectionsFrom(next, order[1..]);
      r
  }

  /** The section list `SaveSettings` collects: each section once. */
  function SectionsOf(order: seq<Pair>): seq<string> {
    SectionsFrom([], order)
  }

  /** The lines written for the given keys of one section. */
  function EntryLines(t: Table, section: string, keys: seq<string>): (lines: seq<string>)
    requires forall k :: k in keys ==> (section, k) in t
    ensures |lines| == |keys|
  {
    if |keys| == 0 then []
    else [EntryLine(keys[0], t[(section, keys[0])])] + EntryLines(t, section, keys[1..])
  }

  /** One section as written: its header, its settings, then an empty line. */
  function SectionBlock(t: Table, order: seq<Pair>, section: string): seq<string>
    requires Enumerates(t, order)
  {
    ["[" + section + "]"] + EntryLines(t, section, KeysIn(order, section)) + [""]
  }

  function Blocks(t: Table, order: seq<Pair>, sections: seq<string>): seq<string>
    requires Enumerates(t, order)
  {
    if |sections| == 0 then []
    else SectionBlock(t, order, sections[0]) + Blocks(t, order, sections[1..])
  }

  /** The lines of the file `SaveSettings` writes. */
  function SaveLines(t: Table, order: seq<Pair>): seq<string>
    requires Enumerates(t, order)
  {
    Blocks(t, order, SectionsOf(order))
  }

  /** The text `SaveSettings` writes, lines ended by CR LF. */
  function SaveText(t: Table, order: seq<Pair>): (text: string)
    requires Enumerates(t, order)
    ensures text == "" <==> |t| == 0
  {
    JoinCrlf(SaveLines(t, order))
  }
}

=== FILE: ini_lines.dfy ===
/** How the settings file is cut into lines when read (`TextReader.ReadLine` until it
    returns null) and how lines are joined when written (each followed by CR LF). */
module IniLines {
  import opened Strings

  /** The index of the first line break in `s`, or `|s|` when there is none. */
  function LineEnd(s: string): (k: nat)
    ensures k <= |s|
    ensures forall i :: 0 <= i < k ==> !IsLineBreak(s[i])
    ensures k < |s| ==> IsLineBreak(s[k])
  {
    if |s| == 0 || IsLineBreak(s[0]) then 0 else 1 + LineEnd(s[1..])
  }

  /** Where the next line starts: after "\r\n", "\r" or "\n", or at the end of the text. */
  function NextLineStart(s: string): (k: nat)
    ensures LineEnd(s) <= k <= |s|
    ensures |s| > 0 ==> k > 0
  {
    var e := LineEnd(s);
    if e + 1 < |s| && s[e] == '\r' && s[e + 1] == '\n' then e + 2
    else if e < |s| then e + 1
    else e
  }

  /** The lines `ReadLine` returns one after another: a final line without terminator
      is returned, and a text that ends with a terminator yields no extra empty line. */
  function ReadLines(text: string): (lines: seq<string>)
    ensures forall i :: 0 <= i < |lines| ==> NoneSatisfy(lines[i], IsLineBreak)
    ensures |text| > 0 ==> |lines| > 0
    decreases |text|
  {
    if |text| == 0 then []
    else [text[..LineEnd(text)]] + ReadLines(text[NextLineStart(text)..])
  }

  /** The text `StreamWriter` receives: every line followed by CR LF. */
  function JoinCrlf(lines: seq<string>): (text: string)
    ensures |text| >= 2 * |lines|
  {
    if |lines| == 0 then "" else lines[0] + "\r\n" + JoinCrlf(lines[1..])
  }

  lemma {:induction false} LineEndOfTerminated(line: string, rest: string)
    requires NoneSatisfy(line, IsLineBreak)
    ensures LineEnd(line + "\r\n" + rest) == |line|
    decreases |line|
  {
    if |line| > 0 {
      assert (line + "\r\n" + rest)[1..] == line[1..] + "\r\n" + rest;
      LineEndOfTerminated(line[1..], rest);
    } else {
      assert (line + "\r\n" + rest)[0] == '\r';
    }
  }

  /** Reading back lines written with CR LF terminators gives the same lines,
      as long as none of them holds a line break. */
  lemma {:induction false} ReadJoinedLines(lines: seq<string>)
    requires forall i :: 0 <= i < |lines| ==> NoneSatisfy(lines[i], IsLineBreak)
    ensures ReadLines(JoinCrlf(lines)) == lines
  {
    if |lines| > 0 {
      var rest := JoinCrlf(lines[1..]);
      var text := lines[0] + "\r\n" + rest;
      assert JoinCrlf(lines) == text;
      LineEndOfTerminated(lines[0], rest);
      assert text[|lines[0]|] == '\r' && text[|lines[0]| + 1] == '\n';
      assert NextLineStart(text) == |lines[0]| + 2;
      assert text[..|lines[0]|] == lines[0];
      assert text[|lines[0]| + 2..] == rest;
      ReadJoinedLines(lines[1..]);
    }
  }

  /** The three terminators `ReadLine` recognises. */
  predicate IsTerminator(t: string) {
    t == "\r\n" || t == "\r" || t == "\n"
  }

  /** Lines of a hand-edited file, line `i` ended by `ends[i]`, where no line holds a break
      and a lone CR is not followed by an empty line ended by LF (that pair is one CR LF). */
  predicate Terminated(lines: seq<string>, ends: seq<string>) {
    && |lines| == |ends|
    && (forall i :: 0 <= i < |ends| ==> IsTerminator(ends[i]))
    && (forall i :: 0 <= i < |lines| ==> NoneSatisfy(lines[i], IsLineBreak))
    && (forall i :: 0 <= i < |lines| - 1 ==> ends[i] == "\r" && lines[i + 1] == "" ==> ends[i + 1] != "\n")
  }

  /** The text of such a file: each line followed by its own terminator. */
  function JoinWith(lines: seq<string>, ends: seq<string>): (text: string)
    requires |lines| == |ends|
  {
    if |lines| == 0 then "" else lines[0] + ends[0] + JoinWith(lines[1..], ends[1..])
  }

  lemma {:induction false} LineEndAtBreak(line: string, rest: string)
    requires NoneSatisfy(line, IsLineBreak) && |rest| > 0 && IsLineBreak(rest[0])
    ensures LineEnd(line + rest) == |line|
    decreases |line|
  {
    if |line| > 0 {
      assert (line + rest)[1..] == line[1..] + rest;
      LineEndAtBreak(line[1..], rest);
    } else {
      assert line + rest == rest;
    }
  }

  /** `ReadLine` returns a break-free line ended by a terminator and continues after it,
      unless a lone CR is followed by LF, which would make the two one terminator. */
  lemma ReadLineThen(line: string, term: string, rest: string)
    requires NoneSatisfy(line, IsLineBreak) && IsTerminator(term)
    requires term == "\r" && |rest| > 0 ==> rest[0] != '\n'
    ensures ReadLines(line + term + rest) == [line] + ReadLines(rest)
  {
    var text := line + term + rest;
    var e := |line|;
    var tail := term + rest;
    AppendAssoc(line, term, rest);
    assert tail[0] == term[0];
    LineEndAtBreak(line, tail);
    assert text[..e] == line;
    var n := NextLineStart(text);
    if term == "\r\n" {
      assert text[e] == '\r' && text[e + 1] == '\n';
      assert n == e + 2;
    } else if term == "\r" {
      assert text[e] == '\r';
      if |rest| > 0 {
        assert text[e + 1] == rest[0];
      }
      assert n == e + 1;
    } else {
      assert text[e] == '\n';
      assert n == e + 1;
    }
    assert text[n..] == rest;
    assert ReadLines(text) == [text[..e]] + ReadLines(text[n..]);
  }

  /** The lines after the first of a terminated file are themselves terminated. */
  lemma TerminatedTail(lines: seq<string>, ends: seq<string>)
    requires Terminated(lines, ends) && |lines| > 0
    ensures Terminated(lines[1..], ends[1..])
  {
    assert forall i :: 0 <= i < |lines| - 1 ==> lines[1..][i] == lines[i + 1] && ends[1..][i] == ends[i + 1];
  }

  /** After a lone CR, the rest of a terminated file does not start with LF. */
  lemma NoLfAfterLoneCr(lines: seq<string>, ends: seq<string>)
    requires Terminated(lines, ends) && |lines| > 0 && ends[0] == "\r"
    ensures var next := JoinWith(lines[1..], ends[1..]); |next| > 0 ==> next[0] != '\n'
  {
    if |lines| > 1 {
      var next := JoinWith(lines[1..], ends[1..]);
      assert next == lines[1] + ends[1] + JoinWith(lines[2..], ends[2..]);
      if |lines[1]| > 0 {
        assert next[0] == lines[1][0];
      } else {
        assert next[0] == ends[1][0];
      }
    }
  }

  /** Reading a file whose lines end in any mix of CR LF, CR and LF gives back its lines. */
  lemma {:induction false} ReadTerminatedLines(lines: seq<string>, ends: seq<string>)
    requires Terminated(lines, ends)
    ensures ReadLines(JoinWith(lines, ends)) == lines
  {
    if |lines| > 0 {
      var next := JoinWith(lines[1..], ends[1..]);
      assert JoinWith(lines, ends) == lines[0] + ends[0] + next;
      if ends[0] == "\r" {
        NoLfAfterLoneCr(lines, ends);
      }
      ReadLineThen(lines[0], ends[0], next);
      TerminatedTail(lines, ends);
      ReadTerminatedLines(lines[1..], ends[1..]);
      assert lines == [lines[0]] + lines[1..];
    }
  }

  /** A last line without a terminator is returned. */
  lemma ReadLastLine(line: string)
    requires |line| > 0 && NoneSatisfy(line, IsLineBreak)
    ensures ReadLines(line) == [line]
  {
    assert LineEnd(line) == |line| && NextLineStart(line) == |line|;
    assert line[..|line|] == line && line[|line|..] == [];
  }

  /** `b` CR `c` LF `d`, the tail of `MixedTerminators`. */
  lemma CrThenLf(b: string, c: string, d: string)
    requires NoneSatisfy(b, IsLineBreak) && NoneSatisfy(c, IsLineBreak) && NoneSatisfy(d, IsLineBreak)
    requires |c| > 0 && |d| > 0
    ensures ReadLines(b + "\r" + (c + "\n" + d)) == [b, c, d]
  {
    var t2 := c + "\n" + d;
    ReadLastLine(d);
    ReadLineThen(c, "\n", d);
    assert t2[0] == c[0];
    ReadLineThen(b, "\r", t2);
    assert [b] + [c, d] == [b, c, d];
  }

  /** A hand-edited file with all three terminators and a last line without one:
      `a` CR LF `b` CR `c` LF `d` reads as the four lines. */
  lemma MixedTerminators(a: string, b: string, c: string, d: string)
    requires NoneSatisfy(a, IsLineBreak) && NoneSatisfy(b, IsLineBreak)
    requires NoneSatisfy(c, IsLineBreak) && NoneSatisfy(d, IsLineBreak)
    requires |c| > 0 && |d| > 0
    ensures ReadLines(a + "\r\n" + (b + "\r" + (c + "\n" + d))) == [a, b, c, d]
  {
    var t1 := b + "\r" + (c + "\n" + d);
    CrThenLf(b, c, d);
    ReadLineThen(a, "\r\n", t1);
    assert [a] + [b, c, d] == [a, b, c, d];
  }

  /** Why `Terminated` excludes a lone CR before an empty LF line: "a" CR, "" LF is the
      text "a" CR LF, which reads as the single line "a". */
  lemma LoneCrThenEmptyLine()
    ensures JoinWith(["a", ""], ["\r", "\n"]) == "a\r\n"
    ensures ReadLines("a\r\n") == ["a"]
  {
    var t := "a\r\n";
    assert JoinWith(["a", ""], ["\r", "\n"]) == "a" + "\r" + ("" + "\n" + "");
    assert t[1] == '\r' && t[2] == '\n' && LineEnd(t[1..]) == 0 && LineEnd(t) == 1;
    assert t[..1] == "a" && t[3..] == "";
    assert ReadLines(t) == ["a"] + ReadLines("");
  }
}

=== FILE: ini_properties.dfy ===
/** What the settings store promises: replace semantics, typed round trips, and
    that a saved table loads back as itself. */
module IniProperties {
  import opened Wrappers
  import opened Strings
  import opened Decimal
  import opened IniLines
  import opened Ini

  // ---------------------------------------------------------------- access

  /** After `AddSetting(s, k, v)` the pair reads back as `v` and every other pair reads
      as before. */
  lemma AddThenGet(t: Table, s: string, k: string, v: Option<string>, s': string, k': string, d: Option<string>)
    ensures GetString(AddString(t, s, k, v), s, k, d) == v
    ensures (s', k') != (s, k) ==> GetString(AddString(t, s, k, v), s', k', d) == GetString(t, s', k', d)
  {
  }

  /** A getter yields its default when the pair is absent and the stored value otherwise. */
  lemma GetDefaultWhenAbsent(t: Table, s: string, k: string, ds: Option<string>, db: bool, di: Int32)
    ensures (s, k) !in t ==> GetString(t, s, k, ds) == ds && GetBool(t, s, k, db) == db && GetInt(t, s, k, di) == Success(di)
    ensures (s, k) in t ==> GetString(t, s, k, ds) == t[(s, k)]
  {
  }

  /** A bool is stored as "Yes" or "No" and reads back as itself. */
  lemma BoolRoundTrip(t: Table, s: string, k: string, b: bool, d: bool)
    ensures AddBool(t, s, k, b)[(s, k)] == Some(if b then "Yes" else "No")
    ensures GetBool(AddBool(t, s, k, b), s, k, d) == b
  {
  }

  /** An int is stored as its decimal text and `int.Parse` reads it back. */
  lemma IntRoundTrip(t: Table, s: string, k: string, n: Int32, d: Int32)
    ensures GetInt(AddInt(t, s, k, n), s, k, d) == Success(n)
  {
    ParseIntToString(n);
  }

  /** A key added without a value reads back as null; as an int it raises. */
  lemma NullValueReads(t: Table, s: string, k: string, d: Int32, db: bool)
    ensures GetString(AddKey(t, s, k), s, k, Some("")) == None
    ensures GetInt(AddKey(t, s, k), s, k, d) == Failure(NullValue)
    ensures GetBool(AddKey(t, s, k), s, k, db) == false
  {
  }

  /** A deleted pair reads as its default; deleting an absent pair changes nothing. */
  lemma DeleteThenGet(t: Table, s: string, k: string, d: Option<string>)
    ensures GetString(Delete(t, s, k), s, k, d) == d
    ensures (s, k) !in t ==> Delete(t, s, k) == t
    ensures IsEmpty(Delete(AddString(map[], s, k, d), s, k))
  {
  }

  // ---------------------------------------------------------------- loading

  /** A trimmed key line splits at its first '=' into the key and the rest. */
  lemma {:induction false} SplitEntryLine(k: string, v: Option<string>)
    requires '=' !in k
    ensures SplitKeyValue(EntryLine(k, v)) == (k, v)
  {
    var line := EntryLine(k, v);
    var i := IndexOf(line, '=');
    if v.Some? {
      assert line[|k|] == '=';
      assert forall j :: 0 <= j < |k| ==> line[j] == k[j];
      assert i == |k|;
      assert line[..i] == k && line[i + 1..] == v.value;
    }
  }

  /** A key that survives a save and a load: not empty, no '=', not starting with '[',
      no line break and no white space at either end. */
  predicate SafeKey(k: string) {
    && |k| > 0
    && '=' !in k
    && k[0] != '['
    && NoneSatisfy(k, IsLineBreak)
    && !IsWhiteSpace(k[0]) && !IsWhiteSpace(k[|k| - 1])
  }

  /** A value that survives a save and a load: no line break and no trailing white space. */
  predicate SafeValue(v: Option<string>) {
    v.Some? ==> NoneSatisfy(v.value, IsLineBreak) && (|v.value| == 0 || !IsWhiteSpace(v.value[|v.value| - 1]))
  }

  /** The written line of a safe setting is already trimmed and is not a header. */
  lemma EntryLineIsKeyLine(k: string, v: Option<string>)
    requires SafeKey(k) && SafeValue(v)
    ensures Trim(EntryLine(k, v)) == EntryLine(k, v)
    ensures |EntryLine(k, v)| > 0 && !IsHeader(EntryLine(k, v))
    ensures NoneSatisfy(EntryLine(k, v), IsLineBreak)
  {
    var line := EntryLine(k, v);
    assert line[0] == k[0];
    if v.Some? {
      assert line == k + "=" + v.value;
      assert !IsWhiteSpace(line[|line| - 1]) by {
        if |v.value| > 0 {
          assert line[|line| - 1] == v.value[|v.value| - 1];
        } else {
          assert line[|line| - 1] == '=';
        }
      }
      assert NoneSatisfy(line, IsLineBreak) by {
        assert forall i :: 0 <= i < |line| ==> line[i] == '=' || line[i] in k || line[i] in v.value;
      }
    }
    assert Trim(line) == line;
  }

  /** How the reader sees any raw line: blank exactly when nothing is left after
      trimming; the header `[name]` exactly when the trimmed line is `[name]`; and the
      key line of `k` and `v` exactly when the trimmed line is neither of those and is
      `k=v` (or the bare `k` when `v` is null) with no '=' in `k`. */
  lemma ClassifyCases(raw: string, name: string, k: string, v: Option<string>)
    ensures Classify(raw) == Blank <==> |Trim(raw)| == 0
    ensures Classify(raw) == Header(name) <==> Trim(raw) == "[" + name + "]"
    ensures Classify(raw) == KeyLine(k, v)
        <==> |Trim(raw)| > 0 && !IsHeader(Trim(raw)) && '=' !in k && EntryLine(k, v) == Trim(raw)
  {
    var line := Trim(raw);
    if line == "[" + name + "]" {
      assert IsHeader(line) && line[1..|line| - 1] == name;
    }
    if IsHeader(line) {
      assert line == "[" + line[1..|line| - 1] + "]";
    }
    if |line| > 0 && !IsHeader(line) && '=' !in k && EntryLine(k, v) == line {
      SplitEntryLine(k, v);
    }
  }

  /** The written line of a safe setting is read as that setting. */
  lemma ClassifyEntryLine(k: string, v: Option<string>)
    requires SafeKey(k) && SafeValue(v)
    ensures Classify(EntryLine(k, v)) == KeyLine(k, v)
  {
    EntryLineIsKeyLine(k, v);
    SplitEntryLine(k, v);
  }

  /** A written header line is read as that header, whatever the section name. */
  lemma ClassifyHeaderLine(section: string)
    ensures Classify("[" + section + "]") == Header(section)
  {
    var header := "[" + section + "]";
    assert Trim(header) == header by {
      assert header[0] == '[' && header[|header| - 1] == ']';
    }
    ClassifyCases(header, section, "", None);
  }

  /** One step of loading over a line that is blank once trimmed. */
  lemma LoadBlankStep(line: string, rest: seq<string>, current: Option<string>, table: Table)
    requires |Trim(line)| == 0
    ensures LoadLines([line] + rest, current, table) == LoadLines(rest, current, table)
  {
    assert ([line] + rest)[1..] == rest;
  }

  /** One step of loading over a line read as the header `[section]`. */
  lemma LoadHeaderStep(raw: string, section: string, rest: seq<string>, current: Option<string>, table: Table)
    requires Classify(raw) == Header(section)
    ensures LoadLines([raw] + rest, current, table) == LoadLines(rest, Some(section), table)
  {
    assert ([raw] + rest)[0] == raw && ([raw] + rest)[1..] == rest;
  }

  /** One step of loading over any line read as a key line: its pair goes under the
      current section, or "ROOT" before any header, which then stays current; a pair
      already read raises. */
  lemma LoadEntryStep(raw: string, k: string, v: Option<string>, rest: seq<string>, current: Option<string>, table: Table)
    requires Classify(raw) == KeyLine(k, v)
    ensures var section := current.GetOr(DEFAULT_SECTION);
      LoadLines([raw] + rest, current, table)
      == if (section, k) in table then Failure(DuplicateKey(section, k))
         else LoadLines(rest, Some(section), table[(section, k) := v])
  {
    assert ([raw] + rest)[0] == raw && ([raw] + rest)[1..] == rest;
  }

  /** Any key line read before any header goes to section "ROOT". */
  lemma {:induction false} LoadRootKeyLine(raw: string, k: string, v: Option<string>)
    requires Classify(raw) == KeyLine(k, v)
    ensures Load([raw]) == Success(map[(DEFAULT_SECTION, k) := v])
  {
    LoadEntryStep(raw, k, v, [], None, map[]);
    assert [raw] + [] == [raw];
  }

  /** After any line read as the header `[section]`, any key line goes to `section`. */
  lemma {:induction false} LoadHeaderThenKey(header: string, section: string, raw: string, k: string, v: Option<string>)
    requires Classify(header) == Header(section) && Classify(raw) == KeyLine(k, v)
    ensures Load([header, raw]) == Success(map[(section, k) := v])
  {
    LoadHeaderStep(header, section, [raw], None, map[]);
    assert [header, raw] == [header] + [raw];
    LoadEntryStep(raw, k, v, [], Some(section), map[]);
    assert [raw] + [] == [raw];
  }

  /** The hand-edited line "  Port = 1512 ", before any header, is stored under "ROOT"
      with the key "Port " and the value " 1512": only the whole line is trimmed. */
  lemma HandEditedLine()
    ensures Load(["  Port = 1512 "]) == Success(map[(DEFAULT_SECTION, "Port ") := Some(" 1512")])
  {
    HandEditedClassify();
    LoadRootKeyLine("  Port = 1512 ", "Port ", Some(" 1512"));
  }

  lemma HandEditedClassify()
    ensures Classify("  Port = 1512 ") == KeyLine("Port ", Some(" 1512"))
  {
    HandEditedTrim();
    HandEditedSplit();
    var line := "Port = 1512";
    assert line[|line| - 1] == '2';
  }

  lemma HandEditedSplit()
    ensures SplitKeyValue("Port = 1512") == ("Port ", Some(" 1512"))
  {
    assert EntryLine("Port ", Some(" 1512")) == "Port = 1512";
    SplitEntryLine("Port ", Some(" 1512"));
  }

  lemma HandEditedTrim()
    ensures Trim("  Port = 1512 ") == "Port = 1512"
  {
    var raw := "  Port = 1512 ";
    assert raw[2..13] == "Port = 1512";
    assert raw[2] == 'P' && raw[12] == '2' && raw[0] == ' ' && raw[1] == ' ' && raw[13] == ' ';
    TrimBySlice(raw, IsWhiteSpace, 2, 13);
  }

  /** Once a pair of `section` is read, a later key line with the same key raises,
      whatever blank and key lines come between, as long as no header does. */
  lemma {:induction false} DuplicateAhead(mid: seq<string>, raw: string, rest: seq<string>, section: string,
                                          table: Table, k: string, v: Option<string>)
    requires (section, k) in table
    requires forall i :: 0 <= i < |mid| ==> !Classify(mid[i]).Header?
    requires Classify(raw) == KeyLine(k, v)
    ensures LoadLines(mid + [raw] + rest, Some(section), table).Failure?
    ensures (forall i :: 0 <= i < |mid| ==> Classify(mid[i]) == Blank) ==>
              LoadLines(mid + [raw] + rest, Some(section), table) == Failure(DuplicateKey(section, k))
    decreases |mid|
  {
    var lines := mid + [raw] + rest;
    if |mid| == 0 {
      assert lines == [raw] + rest;
      LoadEntryStep(raw, k, v, rest, Some(section), table);
    } else {
      assert lines[0] == mid[0] && lines[1..] == mid[1..] + [raw] + rest;
      assert forall i :: 0 <= i < |mid[1..]| ==> mid[1..][i] == mid[i + 1];
      match Classify(mid[0]) {
        case Blank =>
          DuplicateAhead(mid[1..], raw, rest, section, table, k, v);
        case KeyLine(k', v') =>
          if (section, k') !in table {
            DuplicateAhead(mid[1..], raw, rest, section, table[(section, k') := v'], k, v);
          }
      }
    }
  }

  /** Two key lines with the same key in the same section make loading raise: after
      the first, loading the second (past blank and other key lines, but no header)
      fails, and with only blank lines between them it names that pair. */
  lemma {:induction false} RepeatedKeyRaises(first: string, mid: seq<string>, second: string, rest: seq<string>,
                                             current: Option<string>, table: Table, k: string, v1: Option<string>, v2: Option<string>)
    requires Classify(first) == KeyLine(k, v1) && Classify(second) == KeyLine(k, v2)
    requires forall i :: 0 <= i < |mid| ==> !Classify(mid[i]).Header?
    ensures var section := current.GetOr(DEFAULT_SECTION);
      && LoadLines([first] + mid + [second] + rest, current, table).Failure?
      && ((forall i :: 0 <= i < |mid| ==> Classify(mid[i]) == Blank) ==>
            LoadLines([first] + mid + [second] + rest, current, table) == Failure(DuplicateKey(section, k)))
  {
    var section := current.GetOr(DEFAULT_SECTION);
    AppendAssoc([first], mid + [second], rest);
    assert [first] + mid + [second] == [first] + (mid + [second]);
    LoadEntryStep(first, k, v1, mid + [second] + rest, current, table);
    if (section, k) !in table {
      DuplicateAhead(mid, second, rest, section, table[(section, k) := v1], k, v2);
    }
  }

  // ---------------------------------------------------------------- saving

  /** Every setting of the table can be saved and loaded back unchanged. */
  ghost predicate Saveable(t: Table) {
    forall p :: p in t ==> NoneSatisfy(p.0, IsLineBreak) && SafeKey(p.1) && SafeValue(t[p])
  }

  /** The settings of the given sections. */
  ghost function Within(t: Table, sections: set<string>): Table {
    map p | p in t && p.0 in sections :: t[p]
  }

  /** The settings of `section` whose keys are listed. */
  ghost function Listed(t: Table, section: string, keys: seq<string>): Table {
    map p | p in t && p.0 == section && p.1 in keys :: t[p]
  }

  /** Listing one more key of a section adds its setting. */
  lemma ListedCons(t: Table, section: string, keys: seq<string>, table: Table)
    requires |keys| > 0 && (section, keys[0]) in t
    ensures table[(section, keys[0]) := t[(section, keys[0])]] + Listed(t, section, keys[1..])
         == table + Listed(t, section, keys)
  {
    var l := Listed(t, section, keys);
    var l' := Listed(t, section, keys[1..]);
    var k := keys[0];
    assert forall x :: x in keys <==> x == k || x in keys[1..];
    assert l.Keys == l'.Keys + {(section, k)};
  }

  /** Loading the written settings of one section adds exactly those settings. */
  lemma {:induction false} LoadEntries(t: Table, section: string, keys: seq<string>, rest: seq<string>, table: Table)
    requires Saveable(t)
    requires forall k :: k in keys ==> (section, k) in t && (section, k) !in table
    requires NoDuplicates(keys)
    ensures LoadLines(EntryLines(t, section, keys) + rest, Some(section), table)
         == LoadLines(rest, Some(section), table + Listed(t, section, keys))
    decreases |keys|
  {
    if |keys| == 0 {
      assert Listed(t, section, keys) == map[];
      assert table + map[] == table;
      assert EntryLines(t, section, keys) + rest == rest;
    } else {
      var k := keys[0];
      assert k in keys;
      var table' := table[(section, k) := t[(section, k)]];
      assert forall k' :: k' in keys[1..] ==> k' in keys && k' != k;
      LoadEntries(t, section, keys[1..], rest, table');
      assert (section, k) in t;
      LoadFirstEntry(t, section, keys, rest, table);
    }
  }

  lemma BlockAppend<T>(x: T, middle: seq<T>, y: T, rest: seq<T>)
    ensures [x] + middle + [y] + rest == [x] + (middle + ([y] + rest))
  {
  }

  /** The first written setting of a section is loaded, and the rest follow as loading
      them after it does. */
  lemma LoadFirstEntry(t: Table, section: string, keys: seq<string>, rest: seq<string>, table: Table)
    requires forall k :: k in keys ==> (section, k) in t
    requires |keys| > 0 && (section, keys[0]) !in table
    requires SafeKey(keys[0]) && SafeValue(t[(section, keys[0])])
    requires var table' := table[(section, keys[0]) := t[(section, keys[0])]];
      LoadLines(EntryLines(t, section, keys[1..]) + rest, Some(section), table')
      == LoadLines(rest, Some(section), table' + Listed(t, section, keys[1..]))
    ensures LoadLines(EntryLines(t, section, keys) + rest, Some(section), table)
         == LoadLines(rest, Some(section), table + Listed(t, section, keys))
  {
    var k := keys[0];
    var v := t[(section, k)];
    var tail := EntryLines(t, section, keys[1..]);
    var table' := table[(section, k) := v];
    calc {
      LoadLines(EntryLines(t, section, keys) + rest, Some(section), table);
      { assert EntryLines(t, section, keys) == [EntryLine(k, v)] + tail;
        AppendAssoc([EntryLine(k, v)], tail, rest); }
      LoadLines([EntryLine(k, v)] + (tail + rest), Some(section), table);
      { ClassifyEntryLine(k, v);
        LoadEntryStep(EntryLine(k, v), k, v, tail + rest, Some(section), table); }
      LoadLines(tail + rest, Some(section), table');
      LoadLines(rest, Some(section), table' + Listed(t, section, keys[1..]));
      { ListedCons(t, section, keys, table); }
      LoadLines(rest, Some(section), table + Listed(t, section, keys));
    }
  }

  /** Loading one written section block adds exactly that section's settings. */
  lemma {:induction false} LoadBlock(t: Table, order: seq<Pair>, section: string, rest: seq<string>, current: Option<string>, table: Table)
    requires Enumerates(t, order) && Saveable(t)
    requires forall p :: p in table ==> p.0 != section
    ensures LoadLines(SectionBlock(t, order, section) + rest, current, table)
         == LoadLines(rest, Some(section), table + Within(t, {section}))
  {
    var keys := KeysIn(order, section);
    var entries := EntryLines(t, section, keys);
    assert SectionBlock(t, order, section) + rest == ["[" + section + "]"] + (entries + ([""] + rest)) by {
      BlockAppend("[" + section + "]", entries, "", rest);
    }
    ClassifyHeaderLine(section);
    LoadHeaderStep("[" + section + "]", section, entries + ([""] + rest), current, table);
    assert forall k :: k in keys ==> (section, k) in t && (section, k) !in table;
    LoadEntries(t, section, keys, [""] + rest, table);
    LoadBlankStep("", rest, Some(section), table + Listed(t, section, keys));
    ListedSection(t, order, section);
  }

  /** The keys a section lists in the enumeration are all of its settings. */
  lemma ListedSection(t: Table, order: seq<Pair>, section: string)
    requires Enumerates(t, order)
    ensures Listed(t, section, KeysIn(order, section)) == Within(t, {section})
  {
    var keys := KeysIn(order, section);
    var l := Listed(t, section, keys);
    var w := Within(t, {section});
    forall p | p in w ensures p in l {
      assert p in order && p == (section, p.1);
    }
    assert l.Keys == w.Keys;
  }

  lemma WithinUnion(t: Table, a: set<string>, b: set<string>)
    ensures Within(t, a) + Within(t, b) == Within(t, a + b)
  {
  }

  lemma SetOfCons(sections: seq<string>, done: set<string>)
    requires |sections| > 0
    ensures (done + {sections[0]}) + (set s | s in sections[1..]) == done + (set s | s in sections)
  {
    assert forall x :: x in sections <==> x == sections[0] || x in sections[1..];
  }

  /** Loading the blocks of distinct, not yet loaded sections adds exactly their settings. */
  lemma {:induction false} LoadBlocks(t: Table, order: seq<Pair>, sections: seq<string>, current: Option<string>, done: set<string>)
    requires Enumerates(t, order) && Saveable(t)
    requires NoDuplicates(sections)
    requires forall s :: s in sections ==> s !in done
    ensures LoadLines(Blocks(t, order, sections), current, Within(t, done))
         == Success(Within(t, done + (set s | s in sections)))
    decreases |sections|
  {
    if |sections| == 0 {
      assert done + (set s | s in sections) == done;
    } else {
      var s0 := sections[0];
      forall s | s in sections[1..] ensures s !in done + {s0} {
        var j :| 0 <= j < |sections[1..]| && sections[1..][j] == s;
        assert sections[j + 1] == s;
      }
      assert NoDuplicates(sections[1..]) by {
        forall i, j | 0 <= i < j < |sections[1..]| ensures sections[1..][i] != sections[1..][j] {
          assert sections[1..][i] == sections[i + 1] && sections[1..][j] == sections[j + 1];
        }
      }
      LoadBlocks(t, order, sections[1..], Some(s0), done + {s0});
      assert s0 in sections;
      LoadFirstBlock(t, order, sections, current, done);
    }
  }

  /** The first block loads its section, and the later blocks follow as loading them
      after it does. */
  lemma LoadFirstBlock(t: Table, order: seq<Pair>, sections: seq<string>, current: Option<string>, done: set<string>)
    requires Enumerates(t, order) && Saveable(t)
    requires |sections| > 0 && sections[0] !in done
    requires LoadLines(Blocks(t, order, sections[1..]), Some(sections[0]), Within(t, done + {sections[0]}))
          == Success(Within(t, (done + {sections[0]}) + (set s | s in sections[1..])))
    ensures LoadLines(Blocks(t, order, sections), current, Within(t, done))
         == Success(Within(t, done + (set s | s in sections)))
  {
    var s0 := sections[0];
    var later := Blocks(t, order, sections[1..]);
    assert Blocks(t, order, sections) == SectionBlock(t, order, s0) + later;
    var table := Within(t, done);
    assert forall p :: p in table ==> p.0 != s0;
    LoadBlock(t, order, s0, later, current, table);
    WithinUnion(t, done, {s0});
    SetOfCons(sections, done);
  }

  /** Every line that `SaveSettings` writes is free of line breaks. */
  lemma {:induction false} BlocksHaveNoBreaks(t: Table, order: seq<Pair>, sections: seq<string>)
    requires Enumerates(t, order) && Saveable(t)
    requires forall s :: s in sections ==> NoneSatisfy(s, IsLineBreak)
    ensures forall i :: 0 <= i < |Blocks(t, order, sections)| ==> NoneSatisfy(Blocks(t, order, sections)[i], IsLineBreak)
    decreases |sections|
  {
    if |sections| > 0 {
      var s0 := sections[0];
      assert s0 in sections;
      var header := "[" + s0 + "]";
      assert NoneSatisfy(header, IsLineBreak) by {
        forall i | 0 <= i < |header| ensures !IsLineBreak(header[i]) {
          if 0 < i < |header| - 1 {
            assert header[i] == s0[i - 1];
            assert !IsLineBreak(s0[i - 1]);
          }
        }
      }
      EntryLinesHaveNoBreaks(t, s0, KeysIn(order, s0));
      BlocksHaveNoBreaks(t, order, sections[1..]);
    }
  }

  lemma {:induction false} EntryLinesHaveNoBreaks(t: Table, section: string, keys: seq<string>)
    requires Saveable(t)
    requires forall k :: k in keys ==> (section, k) in t
    ensures forall i :: 0 <= i < |keys| ==> NoneSatisfy(EntryLines(t, section, keys)[i], IsLineBreak)
  {
    if |keys| > 0 {
      EntryLineIsKeyLine(keys[0], t[(section, keys[0])]);
      EntryLinesHaveNoBreaks(t, section, keys[1..]);
    }
  }

  /** The sections `SaveSettings` writes are those of the table, each once. */
  lemma SectionsOfTable(t: Table, order: seq<Pair>)
    requires Enumerates(t, order) && Saveable(t)
    ensures NoDuplicates(SectionsOf(order))
    ensures forall s :: s in SectionsOf(order) ==> NoneSatisfy(s, IsLineBreak)
    ensures forall p :: p in t ==> p.0 in SectionsOf(order)
    ensures forall p :: p in t ==> p.0 in {} + (set s | s in SectionsOf(order))
  {
    var sections := SectionsOf(order);
    forall s | s in sections ensures NoneSatisfy(s, IsLineBreak) {
      var p :| p in order && p.0 == s;
      assert p in t;
    }
    forall p | p in t ensures p.0 in sections {
      assert p in order;
    }
  }

  lemma WithinEverySection(t: Table, all: set<string>)
    requires forall p :: p in t ==> p.0 in all
    ensures Within(t, all) == t
  {
  }

  /** Saving a table and loading the written text gives the same table back, whatever
      order the hashtable enumerates its keys in. */
  lemma SaveLoadRoundTrip(t: Table, order: seq<Pair>)
    requires Enumerates(t, order) && Saveable(t)
    ensures Load(ReadLines(SaveText(t, order))) == Success(t)
  {
    var sections := SectionsOf(order);
    SectionsOfTable(t, order);
    BlocksHaveNoBreaks(t, order, sections);
    ReadJoinedLines(SaveLines(t, order));
    var lines := Blocks(t, order, sections);
    assert ReadLines(SaveText(t, order)) == lines;
    assert Within(t, {}) == map[];
    LoadBlocks(t, order, sections, None, {});
    var all := {} + (set s | s in sections);
    WithinEverySection(t, all);
  }
}

=== FILE: strings.dfy ===
/** Character classes and trimming as the .NET runtime defines them. */
module Strings {

  /** `Char.IsWhiteSpace`: the Unicode White_Space characters (categories Zs, Zl, Zp
      plus the controls U+0009..U+000D, U+0085). */
  predicate IsWhiteSpace(c: char) {
    || ('\U{9}' <= c <= '\U{D}')
    || c == ' ' || c == '\U{85}' || c == '\U{A0}' || c == '\U{1680}'
    || ('\U{2000}' <= c <= '\U{200A}')
    || c == '\U{2028}' || c == '\U{2029}' || c == '\U{202F}' || c == '\U{205F}' || c == '\U{3000}'
  }

  /** The white space that integer parsing skips around a number: U+0009..U+000D and U+0020. */
  predicate IsNumberWhite(c: char) {
    ('\U{9}' <= c <= '\U{D}') || c == ' '
  }

  /** A line break as `TextReader.ReadLine` recognises it. */
  predicate IsLineBreak(c: char) {
    c == '\r' || c == '\n'
  }

  /** No character of `s` satisfies `p`. */
  predicate NoneSatisfy(s: string, p: char -> bool) {
    forall i :: 0 <= i < |s| ==> !p(s[i])
  }

  /** Concatenation is associative; stated once for the proofs that regroup pieces. */
  lemma AppendAssoc<T>(a: seq<T>, b: seq<T>, c: seq<T>)
    ensures (a + b) + c == a + (b + c)
  {
  }

  /** The index of the first `c` in `s`, or `|s|` when there is none. */
  function IndexOf(s: string, c: char): (k: nat)
    ensures k <= |s|
    ensures forall i :: 0 <= i < k ==> s[i] != c
    ensures k < |s| ==> s[k] == c
  {
    if |s| == 0 || s[0] == c then 0 else 1 + IndexOf(s[1..], c)
  }

  /** The number of leading characters that satisfy `white`. */
  function LeadingCount(s: string, white: char -> bool): (n: nat)
    ensures n <= |s|
    ensures forall k :: 0 <= k < n ==> white(s[k])
    ensures n < |s| ==> !white(s[n])
  {
    if |s| == 0 || !white(s[0]) then 0 else 1 + LeadingCount(s[1..], white)
  }

  /** Where the run of trailing characters that satisfy `white` begins. */
  function TrailingStart(s: string, white: char -> bool): (m: nat)
    ensures m <= |s|
    ensures forall k :: m <= k < |s| ==> white(s[k])
    ensures m > 0 ==> !white(s[m - 1])
  {
    if |s| == 0 || !white(s[|s| - 1]) then |s| else TrailingStart(s[..|s| - 1], white)
  }

  /** Drops white characters at both ends: the result is a slice of `s` with only white
      characters outside it and none at its ends. A string that neither starts nor ends
      with one is left as it is. */
  function TrimBy(s: string, white: char -> bool): (r: string)
    ensures exists i, j :: 0 <= i <= j <= |s| && r == s[i..j]
              && (forall k :: 0 <= k < i ==> white(s[k])) && (forall k :: j <= k < |s| ==> white(s[k]))
    ensures |r| > 0 ==> !white(r[0]) && !white(r[|r| - 1])
    ensures (|s| == 0 || (!white(s[0]) && !white(s[|s| - 1]))) ==> r == s
    ensures NoneSatisfy(s, white) ==> r == s
  {
    var i := LeadingCount(s, white);
    var j := TrailingStart(s, white);
    if j <= i then
      assert s[i..i] == "";
      ""
    else
      s[i..j]
  }

  /** The slice of `s` that has non-white ends and only white characters outside it is
      what trimming leaves. */
  lemma TrimBySlice(s: string, white: char -> bool, i: nat, j: nat)
    requires i < j <= |s| && !white(s[i]) && !white(s[j - 1])
    requires forall k :: 0 <= k < i ==> white(s[k])
    requires forall k :: j <= k < |s| ==> white(s[k])
    ensures TrimBy(s, white) == s[i..j]
  {
    var r := TrimBy(s, white);
    var a, b :| 0 <= a <= b <= |s| && r == s[a..b]
              && (forall k :: 0 <= k < a ==> white(s[k])) && (forall k :: b <= k < |s| ==> white(s[k]));
    assert !(i < a) && !(b <= i);
    assert r[0] == s[a] && r[|r| - 1] == s[b - 1];
    assert !(a < i) && !(j < b) && !(b < j);
  }

  /** `String.Trim()`. */
  function Trim(s: string): (r: string)
    ensures |r| <= |s|
    ensures |r| > 0 ==> !IsWhiteSpace(r[0]) && !IsWhiteSpace(r[|r| - 1])
    ensures (|s| == 0 || (!IsWhiteSpace(s[0]) && !IsWhiteSpace(s[|s| - 1]))) ==> r == s
  {
    TrimBy(s, IsWhiteSpace)
  }
}

=== FILE: wrappers.dfy ===
/** Failure-compatible wrappers: `Option` stands in for a nullable reference and
    `Result` for an operation that may raise. */
module Wrappers {

  datatype Option<+T> = None | Some(value: T) {

    predicate IsFailure() {
      None?
    }

    function PropagateFailure<U>(): Option<U>
      requires None?
    {
      None
    }

    function Extract(): T
      requires Some?
    {
      value
    }

    /** The wrapped value, or `default` when there is none. */
    function GetOr(default: T): T {
      match this
      case Some(v) => v
      case None => default
    }
  }

  datatype Result<+R, +E> = Success(value: R) | Failure(error: E) {

    predicate IsFailure() {
      Failure?
    }

    function PropagateFailure<U>(): Result<U, E>
      requires Failure?
    {
      Failure(error)
    }

    function Extract(): R
      requires Success?
    {
      value
    }
  }
}
